=== FILE: README.md ===
# Edge request handlers and deploy-time helpers of a CDK website, in Dafny

This project models the small amount of real logic in a personal website's
AWS CDK deployment and its Next.js front end, and proves properties of it:

- **Edge request handlers.** These are CloudFront viewer-request functions.
  Each is a pure function from a request record (uri plus a header map) to a
  `HandlerResult`, which is either `PassThrough(request)` or
  `Redirect(statusCode, statusDescription, headers)`.
  - The Next.js origin's handler either redirects to the primary domain
    with 302 Found (section 15.4.3 of RFC 9110) and a `location` header, or
    tags the request with `x-website-hash`.
  - The older SSR handler only tags the request.
  - The API handler adds `x-api-key` when the request has no
    `authorization` header.
  - The model also covers which headers the API origin request policy
    forwards.
- **Deploy-time string and integer helpers.** These are `scriptSub`
  placeholder substitution and how it bakes the website hash into the
  viewer-request script, `renderName`, the `vtl` replacement fold,
  `toStableExpiration`, and the API domain taken from the GraphQL URL.
  All of them rest on one literal replace-all / split / join library,
  `Strings`.
- **The CDN construct.** It merges the origins' path-pattern → behaviour
  objects, and it falls back to the distribution's domain when no domain
  name is bound.
- **`DomainName`.** This is a bind-once state machine. Its CloudFront and
  Cognito bindings create the certificate, the aliases and the DNS records.
- **Subject interactions.** The interactions are displayed sorted by count,
  descending and stable. Each button keeps an optimistic counter that never
  goes down.

Configuration that the source bakes into code at deploy time (website hash,
primary domain, API key) is passed as ordinary parameters. Clock readings
are passed as parameters too. A JavaScript object used as an ordered record
is modelled as its entries in property order.

Where the code and its comments disagree, the model follows the code. The
comments at `packages/cdk/src/constructs/Cdn/Cdn.ts` lines 12 and 48 say
that earlier origins' behaviours take precedence. The object spread at
line 49 gives later origins precedence, and `Cdn.LaterOriginWins` proves
this. The origins the stages actually pass define disjoint path patterns,
so the difference is not visible in the deployed site.

Files: `wrappers.dfy`, `strings.dfy`, `http.dfy`, `next_origin.dfy`,
`ssr_viewer_request.dfy`, `api_cdn_origin.dfy`, `ssr_website.dfy`,
`naming.dfy`, `api.dfy`, `cdn.dfy`, `domain_names.dfy`, `interactions.dfy`.

## Model

| member | source | states |
|---|---|---|
| NextWebsiteCdnOrigin.Handle | packages/cdk/src/constructs/NextWebsite/NextWebsiteCdnOrigin.ts:94-114 | Redirects exactly when the primary domain is non-empty and the host differs from it. A redirect is 302 "Found" whose only header is `location` = https:// + domain + uri. Otherwise the request passes through with `x-website-hash` = hash, and the uri and every other header are unchanged. |
| NextWebsiteCdnOrigin.CanonicalLocation | packages/cdk/src/constructs/NextWebsite/NextWebsiteCdnOrigin.ts:104 | The location is exactly "https://", then the domain, then the uri; nothing is inserted between them. |
| NextWebsiteCdnOrigin.NoPrimaryDomainNeverRedirects | packages/cdk/src/constructs/NextWebsite/NextWebsiteCdnOrigin.ts:98 | With the primary domain absent or empty (falsy), the result is always the tagged pass-through, whatever the host. |
| NextWebsiteCdnOrigin.PrimaryHostPassesThrough | packages/cdk/src/constructs/NextWebsite/NextWebsiteCdnOrigin.ts:98-113 | On the primary host, the request passes through with `x-website-hash` set to the configured hash, overwriting any client value, and with the uri kept. |
| NextWebsiteCdnOrigin.EmptyUriLocation | packages/cdk/src/constructs/NextWebsite/NextWebsiteCdnOrigin.ts:104 | An empty uri under the redirect condition gives location "https://" + domain, with no trailing `/`. |
| NextWebsiteCdnOrigin.Idempotent | packages/cdk/src/constructs/NextWebsite/NextWebsiteCdnOrigin.ts:98-111 | Applying the handler to its own pass-through output returns that output unchanged, as a pass-through. |
| NextWebsiteCdnOrigin.ScenarioPrimaryHostTagged | packages/cdk/src/constructs/Cdn/Cdn.test.ts:11-32 | The unit test's case: host www.example.com gives the request tagged with FAKE_HASH. |
| NextWebsiteCdnOrigin.ScenarioOtherHostRedirected | packages/cdk/src/constructs/Cdn/Cdn.test.ts:34-55 | The unit test's case: host example.com gives {302, "Found", location https://www.example.com/foobar}. |
| NextWebsiteCdnOrigin.ScenarioNoPrimaryDomain | packages/cdk/src/constructs/NextWebsite/NextWebsiteCdnOrigin.ts:92-113 | With no primary domain configured, the request is tagged with FAKE_HASH and not redirected. |
| SsrViewerRequest.Handle | packages/cdk/src/SsrWebsite.ViewerRequest.js:4-11 | Always a pass-through, never a response. `x-website-hash` = hash, overwriting any existing value; the uri and all other headers are unchanged. |
| SsrViewerRequest.Idempotent | packages/cdk/src/SsrWebsite.ViewerRequest.js:8 | Applying the handler twice gives the same result as applying it once. |
| SsrViewerRequest.SameAsNextWithoutPrimaryDomain | packages/cdk/src/SsrWebsite.ViewerRequest.js:4-11 | The SSR handler equals the Next.js handler configured with no primary domain, on every request. |
| ApiCdnOrigin.AddApiKey | packages/cdk/src/constructs/Api/ApiCdnOrigin.ts:63-73 | Always a pass-through. Without `authorization`, `x-api-key` = the configured key. With `authorization`, the request is returned unchanged, including any client `x-api-key`. Only `x-api-key` can change. |
| ApiCdnOrigin.OriginHeaders | packages/cdk/src/constructs/Api/ApiCdnOrigin.ts:27-38 | The headers forwarded to the API are exactly the request's headers whose names are in {x-api-key, access-control-request-headers, access-control-request-method, content-type}, with their values. |
| ApiCdnOrigin.Idempotent | packages/cdk/src/constructs/Api/ApiCdnOrigin.ts:68-70 | Applying the handler twice gives the same result as applying it once. |
| ApiCdnOrigin.OriginSeesApiKey | packages/cdk/src/constructs/Api/ApiCdnOrigin.ts:28-72 | An anonymous request reaches the API carrying the configured key. A request with `authorization` is forwarded with the same headers as it arrived. |
| ApiCdnOrigin.AuthorizationNeverForwarded | packages/cdk/src/constructs/Api/ApiCdnOrigin.ts:29-31 | `authorization` is never among the headers forwarded to the API. |
| Strings.ReplaceAllPieces | packages/cdk/src/constructs/Api/Api.ts:173 | The input is its pattern-free pieces joined by the pattern, and the output is the same pieces joined by the replacement. So every occurrence is replaced and all other text is kept. |
| Strings.SplitJoinRoundTrip | packages/cdk/src/constructs/util.ts:4 | Joining the pieces of `split(sep)` with `sep` gives back the input. |
| SsrWebsite.ScriptSub | packages/cdk/src/constructs/SsrWebsite.ts:175-183 | With empty props, or with no placeholder of any key present, the script is returned unchanged. |
| SsrWebsite.ScriptSubOneKey | packages/cdk/src/constructs/SsrWebsite.ts:180 | With one key, every `{{K}}` is replaced by the value and the placeholder-free text between occurrences is kept. |
| SsrWebsite.ScriptSubInOrder | packages/cdk/src/SsrWebsite.ts:181-184 | Keys are substituted one after another in entry order: substituting a ++ b is substituting b into the result of substituting a. |
| SsrWebsite.ScriptSubSplice | packages/cdk/src/constructs/SsrWebsite.ts:179-182 | A placeholder between texts without `{` is replaced by its value, and the surrounding text is kept. |
| SsrWebsite.ScriptSubTestCase | packages/cdk/src/constructs/SsrWebsite.test.ts:3-11 | `foo: "{{TEST_VALUE}}"` with TEST_VALUE=bar gives `foo: "bar"`. |
| SsrWebsite.HashSubstituted | packages/cdk/src/SsrWebsite.ts:143-145 | Substituting WEBSITE_HASH into the viewer-request script puts the hash verbatim between the quotes of line 1 and keeps the rest of the script. |
| SsrWebsite.HashLiteralValue | packages/cdk/src/SsrWebsite.ViewerRequest.js:1 | The first single-quoted literal of that script is the hash, provided the hash has no quote or backslash. |
| SsrWebsite.HashBakedIntoScript | packages/cdk/src/constructs/SsrWebsite.ts:127-139 | After substitution, the script's `websiteHash` literal equals the asset hash (given a hash that `replace` inserts as it is and that has no quote or backslash). |
| SsrWebsite.CacheKeyMatchesTaggedHeader | packages/cdk/src/SsrWebsite.ts:131 | The allow-listed `X-Website-Hash` differs in spelling from `x-website-hash` but is the same field name under the case-insensitive comparison of section 5.1 of RFC 9110. |
| SsrWebsite.FunctionName | packages/cdk/src/SsrWebsite.ts:141 | The function name is the node path with every `/` turned into `-`, followed by `-ViewerRequest`. |
| Naming.RenderName | packages/cdk/src/constructs/util.ts:3-5 | `[...path.split('/'), name].join('-')` equals the path with every `/` replaced by `-`, then `-` and the name. |
| Naming.RenderNameShape | packages/cdk/src/constructs/util.ts:4 | The result has length \|path\| + 1 + \|name\| and ends with "-" + name. Its first \|path\| characters are the rewritten path. It has no `/` when the name has none. |
| Naming.RenderNameFlatPath | packages/cdk/src/constructs/util.ts:4 | A path without `/` gives path + "-" + name. |
| Api.ToStableExpiration | packages/cdk/src/constructs/Api/Api.ts:183-188 | The result is a multiple of 30 days in ms (2,592,000,000), and result ≤ t < result + 30 days. |
| Api.StableUnique | packages/cdk/src/constructs/Api/Api.ts:186 | Any multiple of 30 days within 30 days at or below t is the stable expiration of t. |
| Api.StableIdempotent | packages/cdk/src/constructs/Api/Api.ts:186 | Stabilising an already stable timestamp returns it unchanged. |
| Api.StableMonotone | packages/cdk/src/constructs/Api/Api.ts:184-187 | t1 ≤ t2 implies stable(t1) ≤ stable(t2). |
| Api.StableSameBucket | packages/cdk/src/constructs/Api/Api.ts:186 | Two timestamps have equal stable expirations exactly when they fall in the same 30-day bucket. |
| Api.ApiKeyExpiry | packages/cdk/src/constructs/Api/Api.ts:75 | The API key's expiry is a 30-day multiple strictly more than 335 days and at most 365 days after `now`. |
| Api.Vtl | packages/cdk/src/constructs/Api/Api.ts:164-178 | With no replacements, the template is returned unchanged. |
| Api.VtlInOrder | packages/cdk/src/constructs/Api/Api.ts:172-175 | Entries are applied in order, each to the previous output: vtl(t, a ++ b) = vtl(vtl(t, a), b). |
| Api.VtlOneEntry | packages/cdk/src/constructs/Api/Api.ts:173 | One entry replaces every literal occurrence of its key and keeps the text between occurrences. |
| Api.VtlNoMatches | packages/cdk/src/constructs/Api/Api.ts:172-175 | A template containing none of the keys is returned unchanged. |
| Api.ApiDomain | packages/cdk/src/constructs/Api/Api.ts:125 | The result is element 2 of the `/`-split. It exists exactly when there are more than two elements, and it contains no `/`. |
| Api.TokenInsertedLiterally | packages/cdk/src/constructs/Api/Api.ts:104-106 | A deploy-time token `${…}` (a `$` before `{`, no other `$`) is a replacement value that `replaceAll` inserts as it is. |
| Api.TableNameTokenAdmitted | packages/cdk/src/constructs/Api/Api.ts:104-106 | The `$tableName` entry, with a CDK token such as `${Token[TOKEN.12]}` as its value (the number is chosen at synthesis), satisfies the requirement `Api.Vtl` puts on replacements. |
| Api.ApiDomainOfGraphqlUrl | packages/cdk/src/constructs/Api/Api.ts:121-125 | For the URL "https://" + H + "/graphql" with no `/` in H, the selected element is H. |
| Cdn.Put | packages/cdk/src/constructs/Cdn/Cdn.ts:46-50 | Spreading one property keeps an existing key in place or appends a new one. The key reads as the new value, and every other key reads as before. |
| Cdn.AllOrigins | packages/cdk/src/constructs/Cdn/Cdn.ts:42 | The origin list is the default origin first, then the additional origins in the given order. |
| Cdn.MergeKeyOrder | packages/cdk/src/constructs/Cdn/Cdn.ts:45-52 | The merged keys are all origins' keys with duplicates removed, in order of first appearance. |
| Cdn.MergeKeySet | packages/cdk/src/constructs/Cdn/Cdn.ts:45-52 | The merged key set is the union of the origins' key sets, and each key appears once. |
| Cdn.MergeLookup | packages/cdk/src/constructs/Cdn/Cdn.ts:49 | A key's merged value comes from the last origin in the list that defines it. |
| Cdn.LaterOriginWins | packages/cdk/src/constructs/Cdn/Cdn.ts:46-50 | When two origins give one path pattern different behaviours, the merge takes the second one's, contrary to the "earlier take precedence" comments. |
| Cdn.OnlyDefaultOrigin | packages/cdk/src/constructs/Cdn/Cdn.ts:42-52 | With no additional origins, the merged behaviours equal the default origin's own. |
| Cdn.Build | packages/cdk/src/constructs/Cdn/Cdn.ts:37-69 | `domainName` is the given domain's primary name, else the distribution's domain. Without a domain nothing is bound. A given domain is bound to the distribution exactly once, and a throwing bind makes the construct throw. The behaviours are the merge of all origins. |
| Cdn.BoundDomainRejected | packages/cdk/src/constructs/Cdn/Cdn.ts:65 | Passing an already bound domain name makes the construct throw AlreadyBound. |
| DomainNames.New | packages/cdk/src/constructs/DomainName.ts:29-48 | domainNames = [domainName] ++ (alternative names, or [] when absent). The instance is bound exactly when a target is given. Without a target, construction cannot fail. With one, construction succeeds exactly when the target's binding does, and it carries that binding's effects. |
| DomainNames.Bind | packages/cdk/src/constructs/DomainName.ts:50-59 | On a bound instance it throws "Cannot register…" without calling the binding. Otherwise the outcome is the binding's. The instance becomes bound only if the binding returned; on a throw it stays as it was. |
| DomainNames.ApplyBinding | packages/cdk/src/constructs/DomainName.ts:97-181 | The Cognito binding's own code never throws. The CloudFront binding throws exactly when the default child is not a CfnDistribution. Both request the us-east-1 certificate for the domain's names. |
| DomainNames.AliasRecords | packages/cdk/src/constructs/DomainName.ts:126-150 | Exactly two records per name, in order: A with id `A-name`, then AAAA with id `Aaaa-name`, both aliasing the distribution. |
| DomainNames.SecondBindFails | packages/cdk/src/constructs/DomainName.ts:51-55 | After a successful bind, any later bind throws AlreadyBound and leaves the state unchanged. |
| DomainNames.FailedBindLeavesUnbound | packages/cdk/src/constructs/DomainName.ts:57-58 | A bind whose binding throws leaves `bound` false, so a later bind behaves as on a fresh instance. |
| DomainNames.ConstructedWithTargetRejectsBind | packages/cdk/src/constructs/DomainName.ts:45-47 | An instance constructed with a target rejects every later bind with AlreadyBound. |
| DomainNames.CloudFrontBindingRecords | packages/cdk/src/constructs/DomainName.ts:115-145 | The CloudFront binding sets aliases = domainNames. Its records are exactly `AliasRecords(domainNames, distribution domain)`: for name i, the A record `A-name` at position 2i and the AAAA record `Aaaa-name` at 2i+1. |
| DomainNames.BindErrorMessages | packages/cdk/src/constructs/DomainName.ts:51-55 | A bind on a bound instance throws "Cannot register more than one target for this domain name". A CloudFront bind whose default child is not a CfnDistribution throws "Distribution default child is not a CfnDistribution" (line 100). |
| DomainNames.CognitoBindingRecord | packages/cdk/src/constructs/DomainName.ts:171-181 | The Cognito binding creates exactly one CNAME, with id `Cname-` + primary domain name, targeting the user pool domain, and patches no aliases. |
| DomainNames.AtMostOneBinding | packages/cdk/src/constructs/DomainName.ts:50-59 | Over any sequence of bind calls, at most one succeeds, and none does on a bound instance. The instance ends bound exactly when it started bound or one bind succeeded. |
| SubjectInteractions.SortByCountDescending | packages/web/src/components/SubjectInteractions.tsx:28-30 | The sorted list is a permutation of the input, non-increasing by count, and stable: for each count, the elements with that count keep their input order. |
| SubjectInteractions.Displayed | packages/web/src/components/SubjectInteractions.tsx:28 | Without query data the list is empty. Otherwise it is a permutation of the query's interactions, ordered by count descending. |
| SubjectInteractions.SortedUnique | packages/web/src/components/SubjectInteractions.tsx:28-30 | Two count-ordered lists with the same per-count sublists are equal, so the sort's contract determines its output. |
| SubjectInteractions.SortKeepsSorted | packages/web/src/components/SubjectInteractions.tsx:29 | Sorting a list that is already in display order returns it unchanged. |
| SubjectInteractions.Step | packages/web/src/components/SubjectInteractions.tsx:52-63 | The count never decreases. The effect sets the count to max(local, server), so afterwards it is ≥ the server count. A click adds exactly 1 and sends exactly one `addInteraction` for this button's interaction. |
| SubjectInteractions.RunProperties | packages/web/src/components/SubjectInteractions.tsx:53-63 | Over any run from any state, the count grows by at least the number of clicks and ends ≥ every server count seen. Exactly one mutation is sent per click, each for this button's interaction. |
| SubjectInteractions.FromInitial | packages/web/src/components/SubjectInteractions.tsx:53-63 | Starting from `useState(0)` with nothing sent, the count is at least the number of clicks. Exactly one mutation has been sent per click, each for this button's interaction. |

## Left out

- Resource declarations are left out, because they only hand configuration
  to the vendor SDK. This covers AppSync, DynamoDB, Cognito, S3, Lambda,
  certificates, cache policies and distributions.
- Code generation and I/O are left out. `JSON.stringify` embeds the config
  in the handler source, `FunctionCode.fromInline` turns it into a function,
  and `readFileSync` loads the scripts and VTL files. The handlers take
  their config as values. `Vtl` and `ScriptSub` take the file contents as a
  string. Only the first line of the viewer-request script is spelled out;
  `body` stands for the rest.
- Regular-expression and `replace` details are left out:
  - `SsrWebsite.ScriptSub` requires keys made of identifier characters, so
    its pattern has no metacharacters.
  - `SsrWebsite.ScriptSub` and `Api.Vtl` require replacement values in
    which no `$` is followed by `$`, `&`, `` ` ``, `'`, `<` or a digit
    (`Strings.InsertsLiterally`). Those values would substitute text
    instead of being inserted. The source passes asset hashes and
    deploy-time tokens (`${Token[…]}`), whose `${` is copied as it is.
- A missing `host` header is left out, because the source does not handle
  it. `NextWebsiteCdnOrigin.Handle` requires `host` to be present only when
  redirects are enabled. That is the only case in which the source reads it.
- Deploy-time tokens and clocks are left out. `Fn.select`/`Fn.split` are
  modelled as ordinary string functions, with an out-of-range select as
  `None`. `Expiration.after` reads the clock, so `Api.ApiKeyExpiry` takes
  `now` as a parameter.
- `Api.ToStableExpiration` does not model floating point. The source
  divides doubles; for integer timestamps below 2^53 the result equals the
  integer floor division modelled here.
- The certificate's ARN, the viewer-certificate settings, record
  dependencies, `deleteExisting` and the hosted zone are left out. They are
  provisioning details with no logic.
- `DomainNames.CognitoBindingRecord`: the CNAME record is created without
  a record name in the source, so its DNS name is the toolkit's default.
  The model records only its construct id and target.
- `DomainNames.ApplyBinding` keeps no state between bindings. So it does
  not model construct-id collisions. A second Cognito binding to the same
  user pool would reuse the child ids `Certificate` and `Domain`, and a
  second CloudFront binding on one distribution would reuse `Certificate`.
  Either way the toolkit throws.
- A duplicate name in `domainNames` is left out. It would give two
  constructs the same id, and the toolkit, not this code, rejects that.
- The test file imports `cdnFunction` from `Cdn.ts`, which `Cdn.ts` does
  not export. Its assertions describe the Next.js origin handler, and the
  scenario lemmas apply them to it.
- `SubjectInteractions`:
  - React rendering, batching of state updates and stale closures across
    clicks in one render are left out. Each click is assumed to see the
    latest count.
  - `Intl.NumberFormat` display is left out.
  - The GraphQL round trip is left out. Interactions arrive as a value, and
    mutations are recorded as a list.
  - That the query result is not mutated holds by construction: the model
    works on immutable values.
- `GuestBookInput.tsx`, login and session code, pages, layout components,
  generated GraphQL types and build configs are left out. They are float
  geometry, UI markup or thin wrappers over libraries.
- The CloudFront event's `querystring` is left out: `Http.Request` holds
  only the uri and the headers. So the model does not show that the
  redirect built at `NextWebsiteCdnOrigin.ts` line 104 drops the query
  string while the pass-through keeps it.
- UTF-16 is left out. JavaScript strings are sequences of UTF-16 code
  units; Dafny `char`s here are Unicode scalar values. For characters
  outside the Basic Multilingual Plane, `Strings.InsertEverywhere` (which
  inserts between code units in JavaScript) and the length statements
  differ from the source.
- Integer-like property names are left out. Object spread lists keys such
  as "0" or "42" before all others. `Cdn.Put`'s "appends a new key" and
  `Cdn.MergeKeyOrder`'s first-appearance order hold for path patterns that
  are not integer-like, which is every pattern the site uses.
- Concurrency between edge invocations is left out, because the handlers
  are stateless functions.

=== FILE: api.dfy ===
/** The pure computations of the GraphQL API construct: the API key's
    stabilised expiry, the mapping-template substitution and the API domain
    taken from the GraphQL URL. */
module Api {
  import opened Wrappers
  import opened Strings

  const DayMs := 24 * 60 * 60 * 1000

  /** `Duration.days(30).toMilliseconds()`: 2,592,000,000. */
  const ThirtyDaysMs := 30 * DayMs

  // ---------------------------------------------------------------------
  // toStableExpiration
  // ---------------------------------------------------------------------

  /** `Math.floor(t / thirtyDays) * thirtyDays`: the start of the 30-day
      bucket holding `t`. The divisor is positive, so Dafny's division
      floors, as `Math.floor` does, also for negative `t`. */
  function ToStableExpiration(t: int): (r: int)
    ensures r % ThirtyDaysMs == 0
    ensures r <= t < r + ThirtyDaysMs
  {
    (t / ThirtyDaysMs) * ThirtyDaysMs
  }

  /** A multiple of 30 days within 30 days below `t` is the stable
      expiration of `t`: the two postconditions above pin the result down. */
  lemma StableUnique(t: int, r: int)
    requires r % ThirtyDaysMs == 0 && r <= t < r + ThirtyDaysMs
    ensures ToStableExpiration(t) == r
  {
    var s := ToStableExpiration(t);
    var a := r / ThirtyDaysMs;
    var b := s / ThirtyDaysMs;
    assert r == a * ThirtyDaysMs;
    assert s == b * ThirtyDaysMs;
    assert (a - b) * ThirtyDaysMs < ThirtyDaysMs;
    assert (b - a) * ThirtyDaysMs < ThirtyDaysMs;
  }

  /** Stabilising an already stable timestamp returns it unchanged. */
  lemma StableIdempotent(t: int)
    ensures ToStableExpiration(ToStableExpiration(t)) == ToStableExpiration(t)
  {
    var r := ToStableExpiration(t);
    StableUnique(r, r);
  }

  /** Later timestamps never get earlier stable expirations. */
  lemma StableMonotone(t1: int, t2: int)
    requires t1 <= t2
    ensures ToStableExpiration(t1) <= ToStableExpiration(t2)
  {
    var r1 := ToStableExpiration(t1);
    var r2 := ToStableExpiration(t2);
    var a := r1 / ThirtyDaysMs;
    var b := r2 / ThirtyDaysMs;
    assert r1 == a * ThirtyDaysMs;
    assert r2 == b * ThirtyDaysMs;
    assert (a - b) * ThirtyDaysMs < ThirtyDaysMs;
  }

  /** Two timestamps get the same stable expiration exactly when they lie in
      the same 30-day bucket. */
  lemma StableSameBucket(t1: int, t2: int)
    ensures ToStableExpiration(t1) == ToStableExpiration(t2) <==> t1 / ThirtyDaysMs == t2 / ThirtyDaysMs
  {
  }

  /** The key's expiry: one year from `now`, stabilised. `now` stands for the
      clock reading `Expiration.after` takes. */
  function ApiKeyExpiry(now: int): (r: int)
    ensures r % ThirtyDaysMs == 0
    ensures now + 335 * DayMs < r <= now + 365 * DayMs
  {
    ToStableExpiration(now + 365 * DayMs)
  }

  // ---------------------------------------------------------------------
  // vtl
  // ---------------------------------------------------------------------

  /** `replaceAll` inserts every replacement value as it is. */
  predicate LiteralReplacements(replacements: seq<(string, string)>)
  {
    forall i :: 0 <= i < |replacements| ==> InsertsLiterally(replacements[i].1)
  }

  /** The resolvers pass deploy-time tokens, whose text is `${Token[...]}`:
      the `$` before `{` is copied, so such a value is inserted as it is. */
  lemma TokenInsertedLiterally(rest: string)
    requires '$' !in rest
    ensures InsertsLiterally("${" + rest)
  {
    var v := "${" + rest;
    assert forall j :: 2 <= j < |v| ==> v[j] == rest[j - 2];
  }

  /** The `$tableName` entry of `Mutation.addInteraction`, with a CDK token
      such as `${Token[TOKEN.12]}` as its value (the number is chosen at
      synthesis), meets the requirement on replacements. */
  lemma TableNameTokenAdmitted()
    ensures LiteralReplacements([("$tableName", "${Token[TOKEN.12]}")])
  {
    assert "${Token[TOKEN.12]}" == "${" + "Token[TOKEN.12]}";
    TokenInsertedLiterally("Token[TOKEN.12]}");
  }

  /** The mapping template with each (match, replacement) entry applied in
      turn by `replaceAll`; `template` stands for the file's contents. */
  function Vtl(template: string, replacements: seq<(string, string)>): (r: string)
    requires LiteralReplacements(replacements)
    ensures replacements == [] ==> r == template
  {
    ReplaceEach(template, replacements)
  }

  /** Entries are applied one after another, each to the previous output. */
  lemma VtlInOrder(template: string, a: seq<(string, string)>, b: seq<(string, string)>)
    requires LiteralReplacements(a) && LiteralReplacements(b)
    ensures LiteralReplacements(a + b)
    ensures Vtl(template, a + b) == Vtl(Vtl(template, a), b)
  {
    ReplaceEachAppend(template, a, b);
  }

  /** One entry: every occurrence of the match is replaced and the text
      between occurrences is kept. */
  lemma VtlOneEntry(template: string, key: string, replacement: string)
    requires |key| > 0 && InsertsLiterally(replacement)
    ensures var pieces := SplitOn(template, key);
      && template == Join(pieces, key)
      && (forall i :: 0 <= i < |pieces| ==> !Contains(pieces[i], key))
      && Vtl(template, [(key, replacement)]) == Join(pieces, replacement)
  {
    ReplaceAllPieces(template, key, replacement);
    ReplaceEachSingle(template, key, replacement);
  }

  /** A template without any of the (non-empty) matches is returned as it is. */
  lemma VtlNoMatches(template: string, replacements: seq<(string, string)>)
    requires LiteralReplacements(replacements)
    requires forall i :: 0 <= i < |replacements| ==> |replacements[i].0| > 0 && !Contains(template, replacements[i].0)
    ensures Vtl(template, replacements) == template
  {
    ReplaceEachAbsent(template, replacements);
  }

  // ---------------------------------------------------------------------
  // apiDomain
  // ---------------------------------------------------------------------

  /** `Fn.select(2, Fn.split('/', graphqlUrl))`; selecting past the end fails
      the deployment, modelled as `None`. */
  function ApiDomain(graphqlUrl: string): (r: Option<string>)
    ensures r.Some? <==> |SplitOn(graphqlUrl, "/")| > 2
    ensures r.Some? ==> r.value == SplitOn(graphqlUrl, "/")[2]
    ensures r.Some? ==> '/' !in r.value
  {
    var parts := SplitOn(graphqlUrl, "/");
    SplitPiecesAreFree(graphqlUrl, "/");
    if |parts| > 2 then FreeOfChar(parts[2], '/'); Some(parts[2]) else None
  }

  /** For an AppSync URL `https://H/graphql`, the selected element is the
      host `H`. */
  lemma ApiDomainOfGraphqlUrl(host: string)
    requires '/' !in host
    ensures ApiDomain("https://" + host + "/graphql") == Some(host)
  {
    var url := "https://" + host + "/graphql";
    assert url == "https:" + ['/'] + ("" + ['/'] + (host + ['/'] + "graphql"));
    SplitCharFirst("https:", '/', "" + ['/'] + (host + ['/'] + "graphql"));
    SplitCharFirst("", '/', host + ['/'] + "graphql");
    SplitCharFirst(host, '/', "graphql");
  }
}

=== FILE: api_cdn_origin.dfy ===
/** The GraphQL API origin: the viewer-request function that gives
    anonymous callers the public API key, and the header allow-list of the
    origin request policy. */
module ApiCdnOrigin {
  import opened Http

  const AuthorizationHeader := "authorization"
  const ApiKeyHeader := "x-api-key"

  /** Headers the origin request policy forwards to the API. The
      `authorization` entry is commented out in the source. */
  const ForwardedHeaders: set<string> :=
    {ApiKeyHeader, "access-control-request-headers", "access-control-request-method", "content-type"}

  /** Adds `x-api-key` when no `authorization` header is present. Any header
      value is an object, so presence alone makes the test false. */
  function AddApiKey(apiKey: string, req: Request): (r: HandlerResult)
    ensures r.PassThrough?
    ensures AuthorizationHeader !in req.headers ==> Tagged(req, r.request, ApiKeyHeader, apiKey)
    ensures AuthorizationHeader in req.headers ==> r.request == req
    ensures SameExcept(req, r.request, ApiKeyHeader)
  {
    if AuthorizationHeader !in req.headers then PassThrough(SetHeader(req, ApiKeyHeader, apiKey))
    else PassThrough(req)
  }

  /** The headers CloudFront sends on to the API for this request. */
  function OriginHeaders(req: Request): (h: Headers)
    ensures h.Keys == req.headers.Keys * ForwardedHeaders
    ensures forall k :: k in h ==> h[k] == req.headers[k]
  {
    map k | k in req.headers && k in ForwardedHeaders :: req.headers[k]
  }

  /** Running the handler twice is the same as running it once. */
  lemma Idempotent(apiKey: string, req: Request)
    ensures AddApiKey(apiKey, AddApiKey(apiKey, req).request) == AddApiKey(apiKey, req)
  {
    var once := AddApiKey(apiKey, req).request;
    if AuthorizationHeader !in req.headers {
      assert AuthorizationHeader != ApiKeyHeader;
      assert once.headers[ApiKeyHeader := apiKey] == once.headers;
    }
  }

  /** An anonymous request reaches the API carrying the configured key, and
      a signed-in request keeps whatever key the client sent. */
  lemma OriginSeesApiKey(apiKey: string, req: Request)
    ensures AuthorizationHeader !in req.headers ==>
      ApiKeyHeader in OriginHeaders(AddApiKey(apiKey, req).request)
      && OriginHeaders(AddApiKey(apiKey, req).request)[ApiKeyHeader] == apiKey
    ensures AuthorizationHeader in req.headers ==>
      OriginHeaders(AddApiKey(apiKey, req).request) == OriginHeaders(req)
  {
  }

  /** The `authorization` header is never forwarded to the API. */
  lemma AuthorizationNeverForwarded(apiKey: string, req: Request)
    ensures AuthorizationHeader !in OriginHeaders(AddApiKey(apiKey, req).request)
  {
  }
}

=== FILE: cdn.dfy ===
/** The CDN construct: it merges the origins' path-pattern behaviours into
    one object, binds the optional domain name to the distribution and
    exposes the domain the site is served on.

    A behaviour object is modelled as its entries in property order; object
    spread keeps an existing key where it is and overwrites its value, and
    appends a new key at the end. The comments in the source say earlier
    origins take precedence; the spread gives later origins precedence, and
    this model follows the code (see `LaterOriginWins`). */
module Cdn {
  import opened Wrappers
  import DomainNames

  type Behaviors<B> = seq<(string, B)>

  function Keys<B>(m: Behaviors<B>): (ks: seq<string>)
    ensures |ks| == |m|
    ensures forall i :: 0 <= i < |m| ==> ks[i] == m[i].0
  {
    seq(|m|, i requires 0 <= i < |m| => m[i].0)
  }

  predicate Distinct(ks: seq<string>)
  {
    forall i, j :: 0 <= i < j < |ks| ==> ks[i] != ks[j]
  }

  /** Index of the first occurrence of `k`. */
  function IndexOf(ks: seq<string>, k: string): (i: nat)
    requires k in ks
    ensures i < |ks| && ks[i] == k
    ensures forall j :: 0 <= j < i ==> ks[j] != k
  {
    if ks[0] == k then 0 else 1 + IndexOf(ks[1..], k)
  }

  /** The value stored under `k`, read as a property access does. */
  function Lookup<B>(m: Behaviors<B>, k: string): (r: Option<B>)
  {
    if k in Keys(m) then Some(m[IndexOf(Keys(m), k)].1) else None
  }

  lemma IndexOfSnoc(ks: seq<string>, y: string, k: string)
    requires k in ks + [y]
    ensures IndexOf(ks + [y], k) == if k in ks then IndexOf(ks, k) else |ks|
  {
    var i := IndexOf(ks + [y], k);
    if k in ks {
      var j := IndexOf(ks, k);
      assert (ks + [y])[j] == k;
    }
  }

  /** `{...m, [k]: v}`. */
  function Put<B>(m: Behaviors<B>, k: string, v: B): (r: Behaviors<B>)
    ensures Keys(r) == if k in Keys(m) then Keys(m) else Keys(m) + [k]
    ensures forall k' :: Lookup(r, k') == if k' == k then Some(v) else Lookup(m, k')
  {
    var ks := Keys(m);
    if k in ks then
      var r := m[IndexOf(ks, k) := (k, v)];
      assert Keys(r) == ks;
      r
    else
      var r := m + [(k, v)];
      assert Keys(r) == ks + [k];
      forall k' | k' in Keys(r) ensures IndexOf(Keys(r), k') == if k' in ks then IndexOf(ks, k') else |ks| {
        IndexOfSnoc(ks, k, k');
      }
      r
  }

  /** `{...m, ...n}`: each of `n`'s entries put in order. */
  function Spread<B>(m: Behaviors<B>, n: Behaviors<B>): (r: Behaviors<B>)
    decreases |n|
  {
    if |n| == 0 then m
    else Put(Spread(m, n[..|n| - 1]), n[|n| - 1].0, n[|n| - 1].1)
  }

  /** The combined behaviours: `allOrigins.reduce((p, c) => ({...p, ...c}), {})`. */
  function Merge<B>(origins: seq<Behaviors<B>>): (r: Behaviors<B>)
    decreases |origins|
  {
    if |origins| == 0 then []
    else Spread(Merge(origins[..|origins| - 1]), origins[|origins| - 1])
  }

  // ---------------------------------------------------------------------
  // Reference definitions: key order and the defining origin
  // ---------------------------------------------------------------------

  /** `acc` followed by the elements of `xs` not seen before, in order of
      first appearance. */
  function AddNew(acc: seq<string>, xs: seq<string>): (r: seq<string>)
    decreases |xs|
  {
    if |xs| == 0 then acc
    else
      var a := AddNew(acc, xs[..|xs| - 1]);
      if xs[|xs| - 1] in a then a else a + [xs[|xs| - 1]]
  }

  /** Duplicates removed, keeping first occurrences. */
  function Dedup(xs: seq<string>): (r: seq<string>)
  {
    AddNew([], xs)
  }

  /** All origins' keys, origin after origin. */
  function AllKeys<B>(origins: seq<Behaviors<B>>): (r: seq<string>)
    decreases |origins|
  {
    if |origins| == 0 then [] else AllKeys(origins[..|origins| - 1]) + Keys(origins[|origins| - 1])
  }

  /** The value the last origin that defines `k` gives it. */
  function LastDefinition<B>(origins: seq<Behaviors<B>>, k: string): (r: Option<B>)
    decreases |origins|
  {
    if |origins| == 0 then None
    else if k in Keys(origins[|origins| - 1]) then Lookup(origins[|origins| - 1], k)
    else LastDefinition(origins[..|origins| - 1], k)
  }

  // ---------------------------------------------------------------------
  // Lemmas
  // ---------------------------------------------------------------------

  lemma {:induction false} AddNewAppend(acc: seq<string>, xs: seq<string>, ys: seq<string>)
    ensures AddNew(acc, xs + ys) == AddNew(AddNew(acc, xs), ys)
    decreases |ys|
  {
    if |ys| == 0 {
      assert xs + ys == xs;
    } else {
      assert (xs + ys)[..|xs + ys| - 1] == xs + ys[..|ys| - 1];
      AddNewAppend(acc, xs, ys[..|ys| - 1]);
    }
  }

  lemma {:induction false} AddNewContents(acc: seq<string>, xs: seq<string>)
    ensures forall x :: x in AddNew(acc, xs) <==> x in acc || x in xs
    ensures Distinct(acc) ==> Distinct(AddNew(acc, xs))
    decreases |xs|
  {
    if |xs| > 0 {
      AddNewContents(acc, xs[..|xs| - 1]);
      assert xs == xs[..|xs| - 1] + [xs[|xs| - 1]];
    }
  }

  lemma {:induction false} SpreadKeys<B>(m: Behaviors<B>, n: Behaviors<B>)
    ensures Keys(Spread(m, n)) == AddNew(Keys(m), Keys(n))
    decreases |n|
  {
    if |n| > 0 {
      SpreadKeys(m, n[..|n| - 1]);
      assert Keys(n[..|n| - 1]) == Keys(n)[..|n| - 1];
    }
  }

  /** Looking up in a list with one more entry at the end. */
  lemma LookupSnoc<B>(m: Behaviors<B>, e: (string, B), k: string)
    ensures Lookup(m + [e], k) == if k in Keys(m) then Lookup(m, k) else if k == e.0 then Some(e.1) else None
  {
    assert Keys(m + [e]) == Keys(m) + [e.0];
    if k in Keys(m + [e]) {
      IndexOfSnoc(Keys(m), e.0, k);
      if k in Keys(m) {
        assert (m + [e])[IndexOf(Keys(m), k)] == m[IndexOf(Keys(m), k)];
      }
    }
  }

  lemma {:induction false} SpreadLookup<B>(m: Behaviors<B>, n: Behaviors<B>, k: string)
    requires Distinct(Keys(n))
    ensures Lookup(Spread(m, n), k) == if k in Keys(n) then Lookup(n, k) else Lookup(m, k)
    decreases |n|
  {
    if |n| > 0 {
      var init := n[..|n| - 1];
      var last := n[|n| - 1];
      assert n == init + [last];
      assert Keys(n) == Keys(init) + [last.0] by {
        assert Keys(init + [last]) == Keys(init) + [last.0];
      }
      assert Distinct(Keys(init)) by {
        assert forall i :: 0 <= i < |init| ==> Keys(init)[i] == Keys(n)[i];
      }
      assert last.0 !in Keys(init);
      SpreadLookup(m, init, k);
      LookupSnoc(init, last, k);
    }
  }

  /** The merged keys are all origins' keys, without repeats, in order of
      first appearance. */
  lemma {:induction false} MergeKeyOrder<B>(origins: seq<Behaviors<B>>)
    ensures Keys(Merge(origins)) == Dedup(AllKeys(origins))
    decreases |origins|
  {
    if |origins| > 0 {
      var init := origins[..|origins| - 1];
      MergeKeyOrder(init);
      SpreadKeys(Merge(init), origins[|origins| - 1]);
      AddNewAppend([], AllKeys(init), Keys(origins[|origins| - 1]));
    }
  }

  /** The merged key set is the union of the origins' key sets, each key
      appearing once. */
  lemma {:induction false} MergeKeySet<B>(origins: seq<Behaviors<B>>)
    ensures Distinct(Keys(Merge(origins)))
    ensures forall k :: k in Keys(Merge(origins)) <==> exists i :: 0 <= i < |origins| && k in Keys(origins[i])
  {
    MergeKeyOrder(origins);
    AddNewContents([], AllKeys(origins));
    AllKeysContents(origins);
  }

  lemma {:induction false} AllKeysContents<B>(origins: seq<Behaviors<B>>)
    ensures forall k :: k in AllKeys(origins) <==> exists i :: 0 <= i < |origins| && k in Keys(origins[i])
    decreases |origins|
  {
    if |origins| > 0 {
      var init := origins[..|origins| - 1];
      AllKeysContents(init);
      forall k | k in AllKeys(origins) ensures exists i :: 0 <= i < |origins| && k in Keys(origins[i]) {
        if k in AllKeys(init) {
          var i :| 0 <= i < |init| && k in Keys(init[i]);
          assert origins[i] == init[i];
        }
      }
      forall k | exists i :: 0 <= i < |origins| && k in Keys(origins[i]) ensures k in AllKeys(origins) {
        var i :| 0 <= i < |origins| && k in Keys(origins[i]);
        if i < |origins| - 1 {
          assert init[i] == origins[i];
        }
      }
    }
  }

  /** Each JavaScript object has distinct keys. */
  predicate WellFormed<B>(origins: seq<Behaviors<B>>)
  {
    forall i :: 0 <= i < |origins| ==> Distinct(Keys(origins[i]))
  }

  /** A key defined by several origins takes its value from the last of them. */
  lemma {:induction false} MergeLookup<B>(origins: seq<Behaviors<B>>, k: string)
    requires WellFormed(origins)
    ensures Lookup(Merge(origins), k) == LastDefinition(origins, k)
    decreases |origins|
  {
    if |origins| > 0 {
      var init := origins[..|origins| - 1];
      assert WellFormed(init) by {
        forall i | 0 <= i < |init| ensures Distinct(Keys(init[i])) {
          assert init[i] == origins[i];
        }
      }
      MergeLookup(init, k);
      SpreadLookup(Merge(init), origins[|origins| - 1], k);
    }
  }

  /** With two origins defining the same pattern differently, the merged
      value is the second one's, not the first one's as the comments claim. */
  lemma LaterOriginWins<B>(first: Behaviors<B>, second: Behaviors<B>, k: string)
    requires Distinct(Keys(first)) && Distinct(Keys(second))
    requires k in Keys(first) && k in Keys(second) && Lookup(first, k) != Lookup(second, k)
    ensures Lookup(Merge([first, second]), k) == Lookup(second, k)
    ensures Lookup(Merge([first, second]), k) != Lookup(first, k)
  {
    MergeLookup([first, second], k);
    assert [first, second][..1] == [first];
  }

  lemma {:induction false} SpreadOntoEmpty<B>(n: Behaviors<B>)
    requires Distinct(Keys(n))
    ensures Spread([], n) == n
    decreases |n|
  {
    if |n| > 0 {
      var init := n[..|n| - 1];
      assert Keys(n) == Keys(init) + [n[|n| - 1].0];
      SpreadOntoEmpty(init);
      assert n[|n| - 1].0 !in Keys(init);
      assert init + [n[|n| - 1]] == n;
    }
  }

  // ---------------------------------------------------------------------
  // The construct
  // ---------------------------------------------------------------------

  datatype Origin<B> = Origin(additionalBehaviors: Behaviors<B>)
  datatype DefaultOrigin<B> = DefaultOrigin(defaultBehavior: B, additionalBehaviors: Behaviors<B>)

  /** `[defaultOrigin, ...additionalOrigins]`, as behaviour objects. */
  function AllOrigins<B>(defaultOrigin: DefaultOrigin<B>, additionalOrigins: seq<Origin<B>>): (os: seq<Behaviors<B>>)
    ensures |os| == 1 + |additionalOrigins|
    ensures os[0] == defaultOrigin.additionalBehaviors
    ensures forall i :: 0 <= i < |additionalOrigins| ==> os[i + 1] == additionalOrigins[i].additionalBehaviors
  {
    [defaultOrigin.additionalBehaviors]
      + seq(|additionalOrigins|, i requires 0 <= i < |additionalOrigins| => additionalOrigins[i].additionalBehaviors)
  }

  /** The built distribution and the construct's `domainName`. */
  datatype Built<B> = Built(
    defaultBehavior: B,
    additionalBehaviors: Behaviors<B>,
    domainName: string,
    boundDomain: Option<DomainNames.BindResult>)

  /** The constructor: merge the behaviours, bind the domain name (if given)
      to the distribution once, and serve on the bound domain's primary name
      or else on the distribution's own domain. A throwing bind makes the
      constructor throw. */
  function Build<B>(defaultOrigin: DefaultOrigin<B>, additionalOrigins: seq<Origin<B>>,
                    domainName: Option<DomainNames.DomainName>,
                    distribution: DomainNames.Distribution): (r: Result<Built<B>, DomainNames.BindError>)
    ensures domainName.None? ==> r.Success? && r.value.domainName == distribution.distributionDomainName && r.value.boundDomain.None?
    ensures domainName.Some? ==>
      var bind := DomainNames.Bind(domainName.value, DomainNames.CloudFrontBinding(distribution));
      && (r.Success? <==> bind.outcome.Success?)
      && (r.Success? ==> r.value.domainName == domainName.value.domainName && r.value.boundDomain == Some(bind))
      && (r.Failure? ==> r.error == bind.outcome.error)
    ensures r.Success? ==> r.value.additionalBehaviors == Merge(AllOrigins(defaultOrigin, additionalOrigins))
    ensures r.Success? ==> r.value.defaultBehavior == defaultOrigin.defaultBehavior
  {
    var behaviors := Merge(AllOrigins(defaultOrigin, additionalOrigins));
    match domainName
    case None => Success(Built(defaultOrigin.defaultBehavior, behaviors, distribution.distributionDomainName, None))
    case Some(d) =>
      var bind := DomainNames.Bind(d, DomainNames.CloudFrontBinding(distribution));
      if bind.outcome.Failure? then Failure(bind.outcome.error)
      else Success(Built(defaultOrigin.defaultBehavior, behaviors, d.domainName, Some(bind)))
  }

  /** With no additional origins the merged behaviours are the default
      origin's own. */
  lemma OnlyDefaultOrigin<B>(defaultOrigin: DefaultOrigin<B>)
    requires Distinct(Keys(defaultOrigin.additionalBehaviors))
    ensures Merge(AllOrigins(defaultOrigin, [])) == defaultOrigin.additionalBehaviors
  {
    var os := AllOrigins(defaultOrigin, []);
    assert os == [defaultOrigin.additionalBehaviors];
    assert os[..0] == [];
    SpreadOntoEmpty(defaultOrigin.additionalBehaviors);
  }

  /** A domain name that is already bound makes the construct throw. */
  lemma BoundDomainRejected<B>(defaultOrigin: DefaultOrigin<B>, additionalOrigins: seq<Origin<B>>,
                               d: DomainNames.DomainName, distribution: DomainNames.Distribution)
    requires d.bound
    ensures Build(defaultOrigin, additionalOrigins, Some(d), distribution) == Failure(DomainNames.AlreadyBound)
  {
  }
}

=== FILE: domain_names.dfy ===
/** `DomainName`: a primary domain name with alternative names that can be
    bound to exactly one target, and the two bindings that create the
    certificate and DNS records for a CloudFront distribution or a Cognito
    user pool. */
module DomainNames {
  import opened Wrappers

  /** The construct's state: its names and whether a target is bound. */
  datatype DomainName = DomainName(domainName: string, subjectAlternativeNames: seq<string>, bound: bool)

  /** Constructor properties. `subjectAlternativeNames` defaults to none. */
  datatype Props = Props(domainName: string, subjectAlternativeNames: Option<seq<string>>, target: Option<Binding>)

  /** A distribution: whether its default child is a `CfnDistribution`, and
      the domain name CloudFront assigned to it. */
  datatype Distribution = Distribution(defaultChildIsCfnDistribution: bool, distributionDomainName: string)

  /** What a domain name can be bound to. A user pool is represented by the
      CloudFront domain of the custom domain added to it. */
  datatype Binding =
    | CloudFrontBinding(distribution: Distribution)
    | CognitoBinding(userPoolDomain: string)

  /** DNS records, with their construct ids. Alias records point at the
      distribution; the CNAME points at the user pool domain and its own
      name is left to the toolkit's default. */
  datatype Record =
    | ARecord(id: string, recordName: string, aliasTarget: string)
    | AaaaRecord(id: string, recordName: string, aliasTarget: string)
    | CnameRecord(id: string, target: string)

  /** A DNS-validated certificate; both bindings request it in us-east-1. */
  datatype Certificate = Certificate(domainName: string, subjectAlternativeNames: seq<string>, region: string)

  /** What a successful binding creates: the certificate, the distribution
      aliases it patches in (CloudFront only) and the records. */
  datatype BindEffects = BindEffects(certificate: Certificate, aliases: Option<seq<string>>, records: seq<Record>)

  datatype BindError = AlreadyBound | NotCfnDistribution

  function Message(e: BindError): (r: string)
  {
    match e
    case AlreadyBound => "Cannot register more than one target for this domain name"
    case NotCfnDistribution => "Distribution default child is not a CfnDistribution"
  }

  /** Binding an already bound instance throws with the source's message,
      and a CloudFront binding to a distribution whose default child is not
      a `CfnDistribution` throws with its own. */
  lemma BindErrorMessages(d: DomainName, b: Binding)
    ensures d.bound ==> Message(Bind(d, b).outcome.error) == "Cannot register more than one target for this domain name"
    ensures !d.bound && b.CloudFrontBinding? && !b.distribution.defaultChildIsCfnDistribution ==>
      Message(Bind(d, b).outcome.error) == "Distribution default child is not a CfnDistribution"
  {
  }

  /** The state after a `bind` call and what the call returned or threw. */
  datatype BindResult = BindResult(state: DomainName, outcome: Result<BindEffects, BindError>)

  /** All registered names: the primary name first, then the alternatives. */
  function DomainNamesOf(d: DomainName): (r: seq<string>)
  {
    [d.domainName] + d.subjectAlternativeNames
  }

  const CertificateRegion := "us-east-1"

  function CertificateFor(d: DomainName): (r: Certificate)
  {
    Certificate(d.domainName, d.subjectAlternativeNames, CertificateRegion)
  }

  /** One A and one AAAA alias record per name, in order, with ids `A-name`
      and `Aaaa-name`. */
  function AliasRecords(names: seq<string>, target: string): (rs: seq<Record>)
    ensures |rs| == 2 * |names|
    ensures forall i :: 0 <= i < |names| ==>
      && rs[2 * i] == ARecord("A-" + names[i], names[i], target)
      && rs[2 * i + 1] == AaaaRecord("Aaaa-" + names[i], names[i], target)
  {
    if |names| == 0 then []
    else
      var rest := AliasRecords(names[1..], target);
      assert forall i :: 1 <= i < |names| ==> names[i] == names[1..][i - 1];
      [ARecord("A-" + names[0], names[0], target), AaaaRecord("Aaaa-" + names[0], names[0], target)] + rest
  }

  /** `binding.bind(domainName)`. */
  function ApplyBinding(b: Binding, d: DomainName): (r: Result<BindEffects, BindError>)
    ensures b.CognitoBinding? ==> r.Success?
    ensures b.CloudFrontBinding? ==> (r.Success? <==> b.distribution.defaultChildIsCfnDistribution)
    ensures r.Success? ==> r.value.certificate == Certificate(d.domainName, d.subjectAlternativeNames, CertificateRegion)
  {
    match b
    case CloudFrontBinding(dist) =>
      if !dist.defaultChildIsCfnDistribution then Failure(NotCfnDistribution)
      else Success(BindEffects(CertificateFor(d), Some(DomainNamesOf(d)),
                               AliasRecords(DomainNamesOf(d), dist.distributionDomainName)))
    case CognitoBinding(userPoolDomain) =>
      Success(BindEffects(CertificateFor(d), None, [CnameRecord("Cname-" + d.domainName, userPoolDomain)]))
  }

  /** `bind`: refuses when already bound; otherwise applies the binding and
      marks the instance bound only once the binding returned. */
  function Bind(d: DomainName, b: Binding): (r: BindResult)
    ensures d.bound ==> r == BindResult(d, Failure(AlreadyBound))
    ensures !d.bound ==> r.outcome == ApplyBinding(b, d)
    ensures r.outcome.Success? ==> r.state == d.(bound := true)
    ensures r.outcome.Failure? ==> r.state == d
  {
    if d.bound then BindResult(d, Failure(AlreadyBound))
    else match ApplyBinding(b, d)
      case Failure(e) => BindResult(d, Failure(e))
      case Success(effects) => BindResult(d.(bound := true), Success(effects))
  }

  /** A constructed instance and what binding its target created, if any. */
  datatype Constructed = Constructed(instance: DomainName, effects: Option<BindEffects>)

  /** The constructor: records the names and binds the target, if one is
      given; an error the target's binding throws escapes the constructor. */
  function New(props: Props): (r: Result<Constructed, BindError>)
    ensures r.Success? ==>
      && DomainNamesOf(r.value.instance) == [props.domainName] + props.subjectAlternativeNames.GetOr([])
      && (r.value.instance.bound <==> props.target.Some?)
      && (r.value.effects.Some? <==> props.target.Some?)
    ensures props.target.None? ==> r.Success?
    ensures props.target.Some? ==>
      var d := DomainName(props.domainName, props.subjectAlternativeNames.GetOr([]), false);
      && (r.Success? <==> ApplyBinding(props.target.value, d).Success?)
      && (r.Success? ==> r.value.effects == Some(ApplyBinding(props.target.value, d).value))
    ensures r.Failure? ==> r.error == NotCfnDistribution
  {
    var d := DomainName(props.domainName, props.subjectAlternativeNames.GetOr([]), false);
    match props.target
    case None => Success(Constructed(d, None))
    case Some(b) =>
      var br := Bind(d, b);
      match br.outcome
      case Failure(e) => Failure(e)
      case Success(effects) => Success(Constructed(br.state, Some(effects)))
  }

  /** After a successful bind, any further bind throws and changes nothing. */
  lemma SecondBindFails(d: DomainName, first: Binding, second: Binding)
    requires Bind(d, first).outcome.Success?
    ensures Bind(Bind(d, first).state, second) == BindResult(Bind(d, first).state, Failure(AlreadyBound))
  {
  }

  /** A bind whose binding throws leaves the instance unbound, so a later
      bind can still succeed. */
  lemma FailedBindLeavesUnbound(d: DomainName, b: Binding, later: Binding)
    requires !d.bound && Bind(d, b).outcome.Failure?
    ensures !Bind(d, b).state.bound
    ensures Bind(Bind(d, b).state, later).outcome == ApplyBinding(later, d)
  {
  }

  /** An instance constructed with a target rejects every later bind. */
  lemma ConstructedWithTargetRejectsBind(props: Props, b: Binding)
    requires props.target.Some? && New(props).Success?
    ensures Bind(New(props).value.instance, b).outcome == Failure(AlreadyBound)
  {
  }

  /** The CloudFront binding patches the aliases to all names and creates
      exactly one A and one AAAA record per name. */
  lemma CloudFrontBindingRecords(d: DomainName, dist: Distribution)
    requires !d.bound && dist.defaultChildIsCfnDistribution
    ensures var r := Bind(d, CloudFrontBinding(dist));
      && r.outcome.Success?
      && r.outcome.value.aliases == Some(DomainNamesOf(d))
      && r.outcome.value.records == AliasRecords(DomainNamesOf(d), dist.distributionDomainName)
      && |r.outcome.value.records| == 2 * |DomainNamesOf(d)|
      && (forall i :: 0 <= i < |DomainNamesOf(d)| ==>
           && r.outcome.value.records[2 * i] == ARecord("A-" + DomainNamesOf(d)[i], DomainNamesOf(d)[i], dist.distributionDomainName)
           && r.outcome.value.records[2 * i + 1] == AaaaRecord("Aaaa-" + DomainNamesOf(d)[i], DomainNamesOf(d)[i], dist.distributionDomainName))
  {
  }

  /** The Cognito binding creates exactly one CNAME, named after the
      primary domain name only. */
  lemma CognitoBindingRecord(d: DomainName, userPoolDomain: string)
    requires !d.bound
    ensures var r := Bind(d, CognitoBinding(userPoolDomain));
      && r.outcome.Success?
      && r.outcome.value.aliases.None?
      && r.outcome.value.records == [CnameRecord("Cname-" + d.domainName, userPoolDomain)]
  {
  }

  // ---------------------------------------------------------------------
  // Any sequence of bind calls
  // ---------------------------------------------------------------------

  /** The state after a sequence of bind calls, and how many succeeded. */
  function RunBinds(d: DomainName, bs: seq<Binding>): (r: (DomainName, nat))
    decreases |bs|
  {
    if |bs| == 0 then (d, 0)
    else
      var r := Bind(d, bs[0]);
      var (final, n) := RunBinds(r.state, bs[1..]);
      (final, if r.outcome.Success? then n + 1 else n)
  }

  /** At most one bind ever succeeds; none does on a bound instance; and the
      instance ends bound exactly when it started bound or one succeeded. */
  lemma {:induction false} AtMostOneBinding(d: DomainName, bs: seq<Binding>)
    ensures d.bound ==> RunBinds(d, bs).1 == 0
    ensures RunBinds(d, bs).1 <= 1
    ensures RunBinds(d, bs).0.bound <==> d.bound || RunBinds(d, bs).1 == 1
    decreases |bs|
  {
    if |bs| > 0 {
      AtMostOneBinding(Bind(d, bs[0]).state, bs[1..]);
    }
  }
}

=== FILE: http.dfy ===
/** The request record a CloudFront viewer-request function receives and
    the two kinds of value it may return. */
module Http {

  /** Header name (lower case, as the edge runtime presents it) to the
      header's `value`. */
  type Headers = map<string, string>

  datatype Request = Request(uri: string, headers: Headers)

  /** A viewer-request function either hands the (possibly modified)
      request on, or answers the viewer itself. */
  datatype HandlerResult =
    | PassThrough(request: Request)
    | Redirect(statusCode: int, statusDescription: string, headers: Headers)

  const HostHeader := "host"
  const LocationHeader := "location"
  const WebsiteHashHeader := "x-website-hash"

  /** 302 Found, section 15.4.3 of RFC 9110. */
  const FoundStatus := 302
  const FoundDescription := "Found"

  /** `after` has the same uri as `before`, and the same headers except
      possibly `name`. */
  ghost predicate SameExcept(before: Request, after: Request, name: string)
  {
    && after.uri == before.uri
    && (forall h :: h != name ==> (h in after.headers <==> h in before.headers))
    && (forall h :: h != name && h in before.headers ==> after.headers[h] == before.headers[h])
  }

  /** `after` is `before` with header `name` set to `value`, whether or not
      it was present. */
  ghost predicate Tagged(before: Request, after: Request, name: string, value: string)
  {
    && name in after.headers
    && after.headers[name] == value
    && SameExcept(before, after, name)
  }

  /** `request.headers[name] = {value}`: adds or overwrites one header. */
  function SetHeader(req: Request, name: string, value: string): (r: Request)
    ensures Tagged(req, r, name, value)
  {
    req.(headers := req.headers[name := value])
  }
}

=== FILE: interactions.dfy ===
/** The subject-interactions widget: the server's interactions shown in
    descending order of count, and each button's optimistic local counter. */
module SubjectInteractions {
  import opened Wrappers

  datatype Interaction = Interaction(id: string, subject: string, interaction: string, count: int)

  /** Counts never increase along the list. */
  ghost predicate ByCountDescending(xs: seq<Interaction>)
  {
    forall i, j :: 0 <= i < j < |xs| ==> xs[i].count >= xs[j].count
  }

  /** The elements of `xs` with count `c`, in their order in `xs`. */
  function WithCount(xs: seq<Interaction>, c: int): (r: seq<Interaction>)
    decreases |xs|
  {
    if |xs| == 0 then []
    else if xs[0].count == c then [xs[0]] + WithCount(xs[1..], c)
    else WithCount(xs[1..], c)
  }

  /** Puts `x` before the first element whose count is not greater, so it
      stays ahead of equal counts that came after it in the input. */
  function Insert(x: Interaction, sorted: seq<Interaction>): (r: seq<Interaction>)
    requires ByCountDescending(sorted)
    ensures multiset(r) == multiset(sorted) + multiset{x}
    ensures ByCountDescending(r)
    decreases |sorted|
  {
    if |sorted| == 0 then [x]
    else if x.count >= sorted[0].count then
      ConsDescending(x, sorted);
      [x] + sorted
    else
      var rest := Insert(x, sorted[1..]);
      InsertBehindHead(x, sorted, rest);
      [sorted[0]] + rest
  }

  /** Inserting behind the head keeps the head in front of everything. */
  lemma InsertBehindHead(x: Interaction, sorted: seq<Interaction>, rest: seq<Interaction>)
    requires ByCountDescending(sorted) && ByCountDescending(rest)
    requires |sorted| > 0 && x.count < sorted[0].count
    requires multiset(rest) == multiset(sorted[1..]) + multiset{x}
    ensures multiset([sorted[0]] + rest) == multiset(sorted) + multiset{x}
    ensures ByCountDescending([sorted[0]] + rest)
  {
    assert sorted == [sorted[0]] + sorted[1..];
    forall y | y in rest ensures y.count <= sorted[0].count {
      assert y in multiset(rest);
      if y != x {
        assert y in multiset(sorted[1..]);
        var j :| 0 <= j < |sorted[1..]| && sorted[1..][j] == y;
        assert sorted[j + 1] == y;
      }
    }
    ConsDescending(sorted[0], rest);
  }

  lemma ConsDescending(h: Interaction, t: seq<Interaction>)
    requires ByCountDescending(t)
    requires forall y :: y in t ==> y.count <= h.count
    ensures ByCountDescending([h] + t)
  {
    var r := [h] + t;
    forall i, j | 0 <= i < j < |r| ensures r[i].count >= r[j].count {
      assert r[j] == t[j - 1];
      if i > 0 {
        assert r[i] == t[i - 1];
      }
    }
  }

  /** Insertion adds `x` at the front of its own count's sublist and leaves
      the other counts' sublists alone. */
  lemma {:induction false} InsertWithCount(x: Interaction, sorted: seq<Interaction>, c: int)
    requires ByCountDescending(sorted)
    ensures WithCount(Insert(x, sorted), c) == if x.count == c then [x] + WithCount(sorted, c) else WithCount(sorted, c)
    decreases |sorted|
  {
    if |sorted| == 0 {
    } else if x.count >= sorted[0].count {
      assert ([x] + sorted)[1..] == sorted;
    } else {
      var rest := Insert(x, sorted[1..]);
      InsertWithCount(x, sorted[1..], c);
      assert ([sorted[0]] + rest)[1..] == rest;
      if x.count == c {
        assert sorted[0].count != c;
      }
    }
  }

  /** `[...xs].sort((a, b) => b.count - a.count)`. `Array.prototype.sort` is
      stable, so elements with equal counts keep their order. */
  function SortByCountDescending(xs: seq<Interaction>): (r: seq<Interaction>)
    ensures multiset(r) == multiset(xs)
    ensures ByCountDescending(r)
    ensures forall c :: WithCount(r, c) == WithCount(xs, c)
    decreases |xs|
  {
    if |xs| == 0 then []
    else
      var sortedRest := SortByCountDescending(xs[1..]);
      assert xs == [xs[0]] + xs[1..];
      forall c ensures WithCount(Insert(xs[0], sortedRest), c) == WithCount(xs, c) {
        InsertWithCount(xs[0], sortedRest, c);
      }
      Insert(xs[0], sortedRest)
  }

  /** The list shown: the query's interactions sorted, or nothing while the
      query has no data. */
  function Displayed(data: Option<seq<Interaction>>): (r: seq<Interaction>)
    ensures data.None? ==> r == []
    ensures multiset(r) == multiset(data.GetOr([]))
    ensures ByCountDescending(r)
  {
    SortByCountDescending(data.GetOr([]))
  }

  /** Sorting an already ordered list changes nothing: with the order and
      the per-count order fixed, the result is determined. */
  lemma {:induction false} SortedUnique(a: seq<Interaction>, b: seq<Interaction>)
    requires ByCountDescending(a) && ByCountDescending(b)
    requires forall c :: WithCount(a, c) == WithCount(b, c)
    ensures a == b
    decreases |a| + |b|
  {
    if |a| == 0 || |b| == 0 {
      NonEmptyWithCount(a);
      NonEmptyWithCount(b);
    } else {
      HeadCount(a, b);
      assert a[0] == b[0] by {
        assert WithCount(a, a[0].count)[0] == a[0];
        assert WithCount(b, a[0].count)[0] == b[0];
      }
      forall c ensures WithCount(a[1..], c) == WithCount(b[1..], c) {
        assert WithCount(a, c) == WithCount(b, c);
        if a[0].count == c {
          assert ([a[0]] + WithCount(a[1..], c))[1..] == WithCount(a[1..], c);
          assert ([b[0]] + WithCount(b[1..], c))[1..] == WithCount(b[1..], c);
        }
      }
      SortedUnique(a[1..], b[1..]);
      assert a == [a[0]] + a[1..];
      assert b == [b[0]] + b[1..];
    }
  }

  lemma NonEmptyWithCount(xs: seq<Interaction>)
    ensures |xs| > 0 ==> WithCount(xs, xs[0].count) != []
    ensures |xs| == 0 ==> forall c :: WithCount(xs, c) == []
  {
  }

  /** Every element of a list shows up among those of its own count. */
  lemma {:induction false} InWithCount(xs: seq<Interaction>, k: nat)
    requires k < |xs|
    ensures xs[k] in WithCount(xs, xs[k].count)
    decreases |xs|
  {
    if k > 0 {
      InWithCount(xs[1..], k - 1);
    }
  }

  /** Everything in `WithCount(xs, c)` has count `c` and is in `xs`. */
  lemma {:induction false} WithCountSound(xs: seq<Interaction>, c: int)
    ensures forall y :: y in WithCount(xs, c) ==> y.count == c && y in xs
    decreases |xs|
  {
    if |xs| > 0 {
      WithCountSound(xs[1..], c);
    }
  }

  /** Two ordered lists with the same per-count sublists start with the
      same count. */
  lemma HeadCount(a: seq<Interaction>, b: seq<Interaction>)
    requires |a| > 0 && |b| > 0
    requires ByCountDescending(a) && ByCountDescending(b)
    requires forall c :: WithCount(a, c) == WithCount(b, c)
    ensures a[0].count == b[0].count
  {
    InWithCount(a, 0);
    InWithCount(b, 0);
    WithCountSound(a, b[0].count);
    WithCountSound(b, a[0].count);
    assert a[0] in WithCount(b, a[0].count);
    assert b[0] in WithCount(a, b[0].count);
  }

  /** Sorting a list already in display order returns it unchanged. */
  lemma {:induction false} SortKeepsSorted(xs: seq<Interaction>)
    requires ByCountDescending(xs)
    ensures SortByCountDescending(xs) == xs
  {
    SortedUnique(SortByCountDescending(xs), xs);
  }

  // ---------------------------------------------------------------------
  // The optimistic counter of one interaction button
  // ---------------------------------------------------------------------

  /** What happens to a button: the server count arrives (a render with new
      props, after which the effect runs), or the visitor clicks. */
  datatype Event = ServerCount(serverCount: int) | Click

  /** The `addInteraction` mutation a click sends. */
  datatype Mutation = AddInteraction(subject: string, interaction: string)

  /** The button's displayed count and the mutations sent so far. */
  datatype Button = Button(count: int, sent: seq<Mutation>)

  /** `useState(0)`: nothing sent yet. */
  const Initial := Button(0, [])

  /** One event: the effect raises the count to the server's if that is
      larger; a click adds one and sends one mutation for this button. */
  function Step(b: Button, subject: string, interaction: string, e: Event): (r: Button)
    ensures r.count >= b.count
    ensures e.ServerCount? ==> r.count >= e.serverCount && (r.count == b.count || r.count == e.serverCount) && r.sent == b.sent
    ensures e.Click? ==> r.count == b.count + 1 && r.sent == b.sent + [AddInteraction(subject, interaction)]
  {
    match e
    case ServerCount(n) => b.(count := if n > b.count then n else b.count)
    case Click => Button(b.count + 1, b.sent + [AddInteraction(subject, interaction)])
  }

  function Run(b: Button, subject: string, interaction: string, es: seq<Event>): (r: Button)
    decreases |es|
  {
    if |es| == 0 then b else Run(Step(b, subject, interaction, es[0]), subject, interaction, es[1..])
  }

  function Clicks(es: seq<Event>): (r: nat)
    decreases |es|
  {
    if |es| == 0 then 0 else (if es[0].Click? then 1 else 0) + Clicks(es[1..])
  }

  /** Over any run the count never drops, rises by at least one per click,
      ends at or above every server count seen, and exactly one mutation is
      sent per click, all for this button's interaction. */
  lemma {:induction false} RunProperties(b: Button, subject: string, interaction: string, es: seq<Event>)
    ensures Run(b, subject, interaction, es).count >= b.count + Clicks(es)
    ensures forall i :: 0 <= i < |es| && es[i].ServerCount? ==> Run(b, subject, interaction, es).count >= es[i].serverCount
    ensures |Run(b, subject, interaction, es).sent| == |b.sent| + Clicks(es)
    ensures Run(b, subject, interaction, es).sent[..|b.sent|] == b.sent
    ensures forall i :: |b.sent| <= i < |Run(b, subject, interaction, es).sent| ==>
      Run(b, subject, interaction, es).sent[i] == AddInteraction(subject, interaction)
    decreases |es|
  {
    if |es| > 0 {
      var next := Step(b, subject, interaction, es[0]);
      RunProperties(next, subject, interaction, es[1..]);
      var final := Run(b, subject, interaction, es);
      assert final == Run(next, subject, interaction, es[1..]);
      forall i | 0 <= i < |es| && es[i].ServerCount? ensures final.count >= es[i].serverCount {
        if i > 0 {
          assert es[i] == es[1..][i - 1];
        }
      }
      assert final.sent[..|next.sent|] == next.sent;
      assert final.sent[..|b.sent|] == next.sent[..|b.sent|];
    }
  }

  /** From `useState(0)`, the count is at least the number of clicks, and
      exactly one mutation has been sent per click. */
  lemma FromInitial(subject: string, interaction: string, es: seq<Event>)
    ensures Run(Initial, subject, interaction, es).count >= Clicks(es)
    ensures |Run(Initial, subject, interaction, es).sent| == Clicks(es)
    ensures forall i :: 0 <= i < |Run(Initial, subject, interaction, es).sent| ==>
      Run(Initial, subject, interaction, es).sent[i] == AddInteraction(subject, interaction)
  {
    RunProperties(Initial, subject, interaction, es);
  }
}

=== FILE: naming.dfy ===
/** `renderName`: a construct path and a name become a resource name. */
module Naming {
  import opened Strings

  /** `[...path.split('/'), name].join('-')`. The result is the path with
      every `/` turned into `-`, followed by `-` and the name. */
  function RenderName(path: string, name: string): (r: string)
    ensures r == ReplaceAll(path, "/", "-") + "-" + name
  {
    ReplaceAllIsJoinOfSplit(path, "/", "-");
    JoinSnoc(SplitOn(path, "/"), name, "-");
    Join(SplitOn(path, "/") + [name], "-")
  }

  /** The rendered name is as long as the path and the name plus one,
      ends with `-name`, and has no `/` unless the name has one. */
  lemma {:induction false} RenderNameShape(path: string, name: string)
    ensures |RenderName(path, name)| == |path| + 1 + |name|
    ensures RenderName(path, name)[|path|..] == "-" + name
    ensures RenderName(path, name)[..|path|] == ReplaceAll(path, "/", "-")
    ensures '/' !in name ==> '/' !in RenderName(path, name)
  {
    ReplaceAllSameLength(path, "/", "-");
    ReplaceAllRemovesChar(path, '/', "-");
    var r := RenderName(path, name);
    var p := ReplaceAll(path, "/", "-");
    assert r == p + ("-" + name);
    if '/' !in name {
      assert '/' !in "-" + name;
      forall i | 0 <= i < |r| ensures r[i] != '/' {
        if i < |p| {
          assert r[i] == p[i];
        } else {
          assert r[i] == ("-" + name)[i - |p|];
        }
      }
    }
  }

  /** A path without `/` is kept as it is. */
  lemma RenderNameFlatPath(path: string, name: string)
    requires '/' !in path
    ensures RenderName(path, name) == path + "-" + name
  {
    ReplaceAllNoFirstChar(path, "/", "-");
  }
}

=== FILE: next_origin.dfy ===
/** The viewer-request function of the Next.js website origin: it redirects
    visitors on any other host name to the primary domain, and otherwise
    tags the request with the deployment's website hash, which the cache
    policy uses as part of the cache key. */
module NextWebsiteCdnOrigin {
  import opened Wrappers
  import opened Http

  /** The values baked into the function at deploy time. */
  datatype Config = Config(websiteHash: string, primaryDomain: Option<string>)

  /** `props.primaryDomain` is truthy: present and not the empty string. */
  predicate RedirectsEnabled(cfg: Config)
  {
    cfg.primaryDomain.Some? && cfg.primaryDomain.value != ""
  }

  /** The handler reads `headers.host` only when redirects are enabled. */
  predicate HostReadable(cfg: Config, req: Request)
  {
    RedirectsEnabled(cfg) ==> HostHeader in req.headers
  }

  /** The request is on some host other than the primary domain. */
  predicate OnOtherHost(cfg: Config, req: Request)
    requires HostReadable(cfg, req)
  {
    RedirectsEnabled(cfg) && req.headers[HostHeader] != cfg.primaryDomain.value
  }

  /** The redirect location: scheme, primary domain and uri concatenated. */
  function CanonicalLocation(primaryDomain: string, uri: string): (loc: string)
    ensures |loc| == 8 + |primaryDomain| + |uri|
    ensures loc[..8] == "https://"
    ensures loc[8..8 + |primaryDomain|] == primaryDomain
    ensures loc[8 + |primaryDomain|..] == uri
  {
    "https://" + primaryDomain + uri
  }

  function Handle(cfg: Config, req: Request): (r: HandlerResult)
    requires HostReadable(cfg, req)
    ensures r.Redirect? <==> OnOtherHost(cfg, req)
    ensures r.Redirect? ==>
      && r.statusCode == FoundStatus
      && r.statusDescription == FoundDescription
      && r.headers.Keys == {LocationHeader}
      && r.headers[LocationHeader] == CanonicalLocation(cfg.primaryDomain.value, req.uri)
    ensures r.PassThrough? ==> Tagged(req, r.request, WebsiteHashHeader, cfg.websiteHash)
  {
    if RedirectsEnabled(cfg) && req.headers[HostHeader] != cfg.primaryDomain.value then
      Redirect(FoundStatus, FoundDescription, map[LocationHeader := CanonicalLocation(cfg.primaryDomain.value, req.uri)])
    else
      PassThrough(SetHeader(req, WebsiteHashHeader, cfg.websiteHash))
  }

  /** Without a (non-empty) primary domain the handler never redirects,
      whatever the host. */
  lemma NoPrimaryDomainNeverRedirects(cfg: Config, req: Request)
    requires !RedirectsEnabled(cfg)
    ensures Handle(cfg, req) == PassThrough(SetHeader(req, WebsiteHashHeader, cfg.websiteHash))
  {
  }

  /** On the primary domain the request passes through tagged with the hash,
      overwriting any hash the client sent. */
  lemma PrimaryHostPassesThrough(cfg: Config, req: Request)
    requires RedirectsEnabled(cfg)
    requires HostHeader in req.headers && req.headers[HostHeader] == cfg.primaryDomain.value
    ensures Handle(cfg, req).PassThrough?
    ensures Handle(cfg, req).request.headers[WebsiteHashHeader] == cfg.websiteHash
    ensures Handle(cfg, req).request.uri == req.uri
  {
  }

  /** An empty uri gives a location of just the scheme and the domain: no
      `/` is inserted. */
  lemma EmptyUriLocation(cfg: Config, req: Request)
    requires HostReadable(cfg, req) && OnOtherHost(cfg, req) && req.uri == ""
    ensures Handle(cfg, req).headers[LocationHeader] == "https://" + cfg.primaryDomain.value
  {
  }

  /** Running the handler on its own pass-through output returns that output. */
  lemma Idempotent(cfg: Config, req: Request)
    requires HostReadable(cfg, req)
    ensures Handle(cfg, req).PassThrough? ==>
      var out := Handle(cfg, req).request;
      HostReadable(cfg, out) && Handle(cfg, out) == PassThrough(out)
  {
    var r := Handle(cfg, req);
    if r.PassThrough? {
      var out := r.request;
      assert HostHeader != WebsiteHashHeader;
      assert out.headers == req.headers[WebsiteHashHeader := cfg.websiteHash];
      assert out.headers[WebsiteHashHeader := cfg.websiteHash] == out.headers;
    }
  }

  // Scenarios of the handler's unit tests, with primary domain www.example.com.

  const TestConfig := Config("FAKE_HASH", Some("www.example.com"))

  lemma ScenarioPrimaryHostTagged()
    ensures Handle(TestConfig, Request("/foobar", map[HostHeader := "www.example.com"]))
      == PassThrough(Request("/foobar", map[HostHeader := "www.example.com", WebsiteHashHeader := "FAKE_HASH"]))
  {
  }

  lemma ScenarioOtherHostRedirected()
    ensures Handle(TestConfig, Request("/foobar", map[HostHeader := "example.com"]))
      == Redirect(302, "Found", map[LocationHeader := "https://www.example.com/foobar"])
  {
    TestLocation("www.example.com", "/foobar");
  }

  lemma TestLocation(primaryDomain: string, uri: string)
    requires primaryDomain == "www.example.com" && uri == "/foobar"
    ensures CanonicalLocation(primaryDomain, uri) == "https://www.example.com/foobar"
  {
    assert "https://" + primaryDomain == "https://www.example.com";
  }

  lemma ScenarioNoPrimaryDomain()
    ensures Handle(Config("FAKE_HASH", None), Request("/foobar", map[HostHeader := "www.example.com"]))
      == PassThrough(Request("/foobar", map[HostHeader := "www.example.com", WebsiteHashHeader := "FAKE_HASH"]))
  {
  }
}

=== FILE: ssr_viewer_request.dfy ===
/** The viewer-request function of the older server-side-rendered website:
    it only tags the request with the website hash. */
module SsrViewerRequest {
  import opened Wrappers
  import opened Http
  import NextWebsiteCdnOrigin

  function Handle(websiteHash: string, req: Request): (r: HandlerResult)
    ensures r.PassThrough?
    ensures Tagged(req, r.request, WebsiteHashHeader, websiteHash)
  {
    PassThrough(SetHeader(req, WebsiteHashHeader, websiteHash))
  }

  /** Running the handler twice is the same as running it once. */
  lemma Idempotent(websiteHash: string, req: Request)
    ensures Handle(websiteHash, Handle(websiteHash, req).request) == Handle(websiteHash, req)
  {
    var once := Handle(websiteHash, req).request;
    assert once.headers[WebsiteHashHeader := websiteHash] == once.headers;
  }

  /** The handler behaves as the Next.js handler with no primary domain. */
  lemma SameAsNextWithoutPrimaryDomain(websiteHash: string, req: Request)
    ensures NextWebsiteCdnOrigin.HostReadable(NextWebsiteCdnOrigin.Config(websiteHash, None), req)
    ensures Handle(websiteHash, req) == NextWebsiteCdnOrigin.Handle(NextWebsiteCdnOrigin.Config(websiteHash, None), req)
  {
  }
}

=== FILE: ssr_website.dfy ===
/** Deploy-time pieces of the server-side-rendered website: `scriptSub`
    placeholder substitution, its use to bake the website hash into the
    viewer-request script, the cache policy's header allow-list and the
    function's name. */
module SsrWebsite {
  import opened Wrappers
  import opened Strings
  import Http
  import Naming

  predicate IdentifierChar(c: char)
  {
    'a' <= c <= 'z' || 'A' <= c <= 'Z' || '0' <= c <= '9' || c == '_'
  }

  /** Keys are spliced into a regular expression; keys made of identifier
      characters have no metacharacters, so the pattern matches literally. */
  predicate PlainKey(k: string)
  {
    forall i :: 0 <= i < |k| ==> IdentifierChar(k[i])
  }

  /** Keys are plain and `replace` inserts each value as it is. */
  predicate LiteralProps(props: seq<(string, string)>)
  {
    forall i :: 0 <= i < |props| ==> PlainKey(props[i].0) && InsertsLiterally(props[i].1)
  }

  /** The text the pattern for key `k` matches: `{{k}}`. */
  function Placeholder(k: string): (p: string)
    ensures |p| == |k| + 4 && p[0] == '{'
  {
    "{{" + k + "}}"
  }

  function Placeholders(props: seq<(string, string)>): (pairs: seq<(string, string)>)
    ensures |pairs| == |props|
    ensures forall i :: 0 <= i < |props| ==> pairs[i] == (Placeholder(props[i].0), props[i].1)
  {
    seq(|props|, i requires 0 <= i < |props| => (Placeholder(props[i].0), props[i].1))
  }

  /** `scriptSub(script, props)`, with `props` given as its entries in order. */
  function ScriptSub(script: string, props: seq<(string, string)>): (r: string)
    requires LiteralProps(props)
    ensures props == [] ==> r == script
    ensures (forall i :: 0 <= i < |props| ==> !Contains(script, Placeholder(props[i].0))) ==> r == script
  {
    var pairs := Placeholders(props);
    ReplaceEachAbsentIf(script, pairs);
    ReplaceEach(script, pairs)
  }

  lemma ReplaceEachAbsentIf(s: string, pairs: seq<(string, string)>)
    requires forall k :: 0 <= k < |pairs| ==> |pairs[k].0| > 0
    ensures (forall k :: 0 <= k < |pairs| ==> !Contains(s, pairs[k].0)) ==> ReplaceEach(s, pairs) == s
  {
    if forall k :: 0 <= k < |pairs| ==> !Contains(s, pairs[k].0) {
      ReplaceEachAbsent(s, pairs);
    }
  }

  lemma ScriptSubSingle(script: string, k: string, v: string)
    requires LiteralProps([(k, v)])
    ensures ScriptSub(script, [(k, v)]) == ReplaceAll(script, Placeholder(k), v)
  {
    assert Placeholders([(k, v)]) == [(Placeholder(k), v)];
    ReplaceEachSingle(script, Placeholder(k), v);
  }

  /** One key: the script is its placeholder-free pieces joined by the
      placeholder, and the result is the same pieces joined by the value.
      So every occurrence is replaced and all other text is kept. */
  lemma ScriptSubOneKey(script: string, k: string, v: string)
    requires LiteralProps([(k, v)])
    ensures var pieces := SplitOn(script, Placeholder(k));
      && script == Join(pieces, Placeholder(k))
      && (forall i :: 0 <= i < |pieces| ==> !Contains(pieces[i], Placeholder(k)))
      && ScriptSub(script, [(k, v)]) == Join(pieces, v)
  {
    ReplaceAllPieces(script, Placeholder(k), v);
    ScriptSubSingle(script, k, v);
  }

  /** Entries are substituted one after another: substituting `a + b` is
      substituting `a`, then `b` into the result. */
  lemma ScriptSubInOrder(script: string, a: seq<(string, string)>, b: seq<(string, string)>)
    requires LiteralProps(a) && LiteralProps(b)
    ensures LiteralProps(a + b)
    ensures ScriptSub(script, a + b) == ScriptSub(ScriptSub(script, a), b)
  {
    assert Placeholders(a + b) == Placeholders(a) + Placeholders(b);
    ReplaceEachAppend(script, Placeholders(a), Placeholders(b));
  }

  /** A placeholder between two stretches of text without `{` is replaced
      by the value and the text around it is kept. */
  lemma ScriptSubSplice(a: string, k: string, v: string, b: string)
    requires LiteralProps([(k, v)])
    requires '{' !in a && '{' !in b
    ensures ScriptSub(a + Placeholder(k) + b, [(k, v)]) == a + v + b
  {
    var p := Placeholder(k);
    ScriptSubSingle(a + p + b, k, v);
    assert a + p + b == a + (p + b);
    ReplaceAllSkipPrefix(a, p + b, p, v);
    ReplaceAllFront(p, b, v);
    ReplaceAllNoFirstChar(b, p, v);
  }

  /** The unit test's case: `foo: "{{TEST_VALUE}}"` with TEST_VALUE = bar. */
  lemma ScriptSubTestCase()
    ensures LiteralProps([("TEST_VALUE", "bar")])
    ensures ScriptSub("foo: \"{{TEST_VALUE}}\"", [("TEST_VALUE", "bar")]) == "foo: \"bar\""
  {
    ScriptSubTestCaseAt("foo: \"{{TEST_VALUE}}\"", "TEST_VALUE", "bar");
  }

  /** The same case with the literals held in variables, so that the proof
      works through the general lemmas instead of unfolding literals. */
  lemma ScriptSubTestCaseAt(script: string, k: string, v: string)
    requires script == "foo: \"{{TEST_VALUE}}\""
    requires k == "TEST_VALUE" && v == "bar"
    ensures LiteralProps([(k, v)])
    ensures ScriptSub(script, [(k, v)]) == "foo: \"bar\""
  {
    var a, b := "foo: \"", "\"";
    TestCaseShape(script, k, v);
    ScriptSubSplice(a, k, v, b);
    assert a + v + b == "foo: \"bar\"";
  }

  lemma TestCaseShape(script: string, k: string, v: string)
    requires script == "foo: \"{{TEST_VALUE}}\""
    requires k == "TEST_VALUE" && v == "bar"
    ensures LiteralProps([(k, v)])
    ensures script == "foo: \"" + Placeholder(k) + "\""
  {
    assert LiteralProps([(k, v)]) by {
      assert PlainKey(k);
    }
    TestScriptShape(script, k);
  }

  lemma TestScriptShape(script: string, k: string)
    requires script == "foo: \"{{TEST_VALUE}}\""
    requires k == "TEST_VALUE"
    ensures script == "foo: \"" + Placeholder(k) + "\""
  {
    assert Placeholder(k) == "{{TEST_VALUE}}";
  }

  // ---------------------------------------------------------------------
  // The viewer-request script and its website hash
  // ---------------------------------------------------------------------

  const HashKey := "WEBSITE_HASH"

  /** The script's first line up to its string literal's opening quote. */
  const ScriptHead := "var websiteHash = '"

  /** The viewer-request script: its first line declares the hash literal
      `'{{WEBSITE_HASH}}'`; `body` stands for the rest of the file. */
  function ViewerRequestScript(body: string): (r: string)
  {
    ScriptHead + Placeholder(HashKey) + "';" + body
  }

  /** The text before the first `c`, if `c` occurs. */
  function Before(s: string, c: char): (r: Option<string>)
    ensures r.Some? ==> c !in r.value && r.value + [c] <= s
  {
    if |s| == 0 then None
    else if s[0] == c then Some("")
    else match Before(s[1..], c)
      case None => None
      case Some(t) => Some([s[0]] + t)
  }

  /** The contents of the first single-quoted literal, escapes not
      interpreted. */
  function FirstQuoted(s: string): (r: Option<string>)
  {
    if |s| == 0 then None
    else if s[0] == '\'' then Before(s[1..], '\'')
    else FirstQuoted(s[1..])
  }

  lemma {:induction false} BeforeFirst(a: string, c: char, b: string)
    requires c !in a
    ensures Before(a + [c] + b, c) == Some(a)
    decreases |a|
  {
    if |a| > 0 {
      assert (a + [c] + b)[1..] == a[1..] + [c] + b;
      BeforeFirst(a[1..], c, b);
      assert a == [a[0]] + a[1..];
    }
  }

  lemma {:induction false} FirstQuotedSkip(a: string, b: string)
    requires '\'' !in a
    ensures FirstQuoted(a + b) == FirstQuoted(b)
    decreases |a|
  {
    if |a| > 0 {
      assert (a + b)[1..] == a[1..] + b;
      FirstQuotedSkip(a[1..], b);
    } else {
      assert a + b == b;
    }
  }

  lemma HashProps(hash: string)
    requires InsertsLiterally(hash)
    ensures LiteralProps([(HashKey, hash)])
  {
    assert PlainKey(HashKey);
  }

  /** A placeholder after text without `{`, followed by text without `{`
      and then any text free of the placeholder, is replaced by the value. */
  lemma SpliceBeforeFree(a: string, k: string, v: string, c: string, rest: string)
    requires LiteralProps([(k, v)])
    requires '{' !in a && '{' !in c
    requires !Contains(rest, Placeholder(k))
    ensures ScriptSub(a + Placeholder(k) + c + rest, [(k, v)]) == a + v + c + rest
  {
    ScriptSubSingle(a + Placeholder(k) + c + rest, k, v);
    ReplaceAllSplice(a, Placeholder(k), c, rest, v);
  }

  /** Substituting the website hash puts it verbatim between the quotes of
      the script's hash literal; the rest of the script is kept. */
  lemma HashSubstituted(body: string, hash: string)
    requires !Contains(body, Placeholder(HashKey))
    requires InsertsLiterally(hash)
    ensures LiteralProps([(HashKey, hash)])
    ensures ScriptSub(ViewerRequestScript(body), [(HashKey, hash)]) == ScriptHead + hash + "';" + body
  {
    HashProps(hash);
    SpliceBeforeFree(ScriptHead, HashKey, hash, "';", body);
  }

  /** The first quoted literal of the substituted script is the hash, when
      the hash has no quote or backslash. */
  lemma HashLiteralValue(body: string, hash: string)
    requires '\'' !in hash && '\\' !in hash
    ensures FirstQuoted(ScriptHead + hash + "';" + body) == Some(hash)
  {
    var rest := ";" + body;
    var quoted := "'" + (hash + "'" + rest);
    assert ScriptHead + hash + "';" + body == "var websiteHash = " + quoted;
    FirstQuotedSkip("var websiteHash = ", quoted);
    assert quoted[1..] == hash + ['\''] + rest;
    BeforeFirst(hash, '\'', rest);
  }

  /** The baked script's `websiteHash` literal holds the asset hash. */
  lemma HashBakedIntoScript(body: string, hash: string)
    requires !Contains(body, Placeholder(HashKey))
    requires InsertsLiterally(hash) && '\'' !in hash && '\\' !in hash
    ensures LiteralProps([(HashKey, hash)])
    ensures FirstQuoted(ScriptSub(ViewerRequestScript(body), [(HashKey, hash)])) == Some(hash)
  {
    HashSubstituted(body, hash);
    HashLiteralValue(body, hash);
  }

  // ---------------------------------------------------------------------
  // Cache key and function name
  // ---------------------------------------------------------------------

  /** The header the cache policy puts in the cache key. */
  const CacheKeyHeader := "X-Website-Hash"

  /** The allow-listed name differs in case from the header the viewer
      request function sets, and names the same header field. */
  lemma CacheKeyMatchesTaggedHeader()
    ensures CacheKeyHeader != Http.WebsiteHashHeader
    ensures SameFieldName(CacheKeyHeader, Http.WebsiteHashHeader)
  {
    assert CacheKeyHeader[0] != Http.WebsiteHashHeader[0];
    assert AsciiLower(CacheKeyHeader) == Http.WebsiteHashHeader;
  }

  /** The viewer-request function's name: the node path's segments and
      `ViewerRequest`, joined with `-`. */
  function FunctionName(nodePath: string): (r: string)
    ensures r == ReplaceAll(nodePath, "/", "-") + "-ViewerRequest"
  {
    Naming.RenderName(nodePath, "ViewerRequest")
  }
}

=== FILE: strings.dfy ===
/** String operations shared by the deploy-time helpers: literal
    replace-all (JavaScript `replaceAll` with a string pattern, and a global
    regular expression whose pattern has no metacharacters), `split` on a
    non-empty separator, `join`, a left fold of replacements, and ASCII
    lower-casing for header-name comparison. */
module Strings {

  /** `pat` occurs in `s` starting at index `i`. */
  predicate MatchAt(s: string, pat: string, i: nat)
  {
    i + |pat| <= |s| && s[i..i + |pat|] == pat
  }

  /** `pat` occurs somewhere in `s`. */
  predicate Contains(s: string, pat: string)
  {
    exists i: nat | i <= |s| :: MatchAt(s, pat, i)
  }

  /** `rep` inserted before every character and at the end: what
      `replaceAll` does when the pattern is the empty string. */
  function InsertEverywhere(s: string, rep: string): (r: string)
    ensures |r| == |s| + (|s| + 1) * |rep|
  {
    if |s| == 0 then rep else rep + [s[0]] + InsertEverywhere(s[1..], rep)
  }

  /** Replaces every occurrence of `pat` in `s` by `rep`, scanning left to
      right; occurrences do not overlap and the replacement text is never
      rescanned. */
  function ReplaceAll(s: string, pat: string, rep: string): (r: string)
    decreases |s|
  {
    if |pat| == 0 then InsertEverywhere(s, rep)
    else if |s| < |pat| then s
    else if s[..|pat|] == pat then rep + ReplaceAll(s[|pat|..], pat, rep)
    else [s[0]] + ReplaceAll(s[1..], pat, rep)
  }

  /** Splits `s` at every occurrence of `sep`, scanning left to right, as
      `s.split(sep)` does for a non-empty string separator. The first piece
      is the text before the first occurrence. */
  function SplitOn(s: string, sep: string): (parts: seq<string>)
    requires |sep| > 0
    ensures |parts| >= 1
    ensures parts[0] <= s
    decreases |s|
  {
    if |s| < |sep| then [s]
    else if s[..|sep|] == sep then [""] + SplitOn(s[|sep|..], sep)
    else
      var rest := SplitOn(s[1..], sep);
      [[s[0]] + rest[0]] + rest[1..]
  }

  /** The pieces concatenated with `sep` between neighbours (`Array.join`). */
  function Join(parts: seq<string>, sep: string): (r: string)
  {
    if |parts| == 0 then ""
    else if |parts| == 1 then parts[0]
    else parts[0] + sep + Join(parts[1..], sep)
  }

  /** Applies each (pattern, replacement) pair in turn, each to the output
      of the previous one: `Object.entries(r).reduce((acc, [k, v]) => ...)`. */
  function ReplaceEach(s: string, pairs: seq<(string, string)>): (r: string)
    decreases |pairs|
  {
    if |pairs| == 0 then s
    else ReplaceEach(ReplaceAll(s, pairs[0].0, pairs[0].1), pairs[1..])
  }

  /** `rep` is inserted as it is by `replace` and `replaceAll`: it has no
      `$` that starts a substitution pattern (GetSubstitution, section
      22.1.3.19.1 of ECMA-262). `$$`, `$&`, `` $` `` and `$'` always
      substitute; `$<` and `$` before a digit are excluded too, which is
      conservative for the group-free patterns used here. A `$` followed by
      anything else, such as the `${` of a deploy-time token, or a final `$`,
      is copied. */
  predicate InsertsLiterally(rep: string)
  {
    forall i :: 0 <= i < |rep| - 1 && rep[i] == '$' ==> rep[i + 1] !in "$&`'<0123456789"
  }

  /** ASCII upper-case letters mapped to lower case; every other character kept. */
  function LowerChar(c: char): (r: char)
  {
    if 'A' <= c <= 'Z' then (c as int - 'A' as int + 'a' as int) as char else c
  }

  function AsciiLower(s: string): (r: string)
    ensures |r| == |s|
    ensures forall i :: 0 <= i < |s| ==> r[i] == LowerChar(s[i])
  {
    seq(|s|, i requires 0 <= i < |s| => LowerChar(s[i]))
  }

  /** Header field names compare case-insensitively (section 5.1 of RFC 9110). */
  predicate SameFieldName(a: string, b: string)
  {
    AsciiLower(a) == AsciiLower(b)
  }

  // ---------------------------------------------------------------------
  // Lemmas about ReplaceAll, SplitOn and Join
  // ---------------------------------------------------------------------

  lemma JoinConsHead(c: char, parts: seq<string>, sep: string)
    requires |parts| >= 1
    ensures Join([[c] + parts[0]] + parts[1..], sep) == [c] + Join(parts, sep)
  {
    var q := [[c] + parts[0]] + parts[1..];
    assert q[1..] == parts[1..];
  }

  /** Replacing every occurrence is splitting at the occurrences and joining
      the pieces with the replacement. */
  lemma {:induction false} ReplaceAllIsJoinOfSplit(s: string, pat: string, rep: string)
    requires |pat| > 0
    ensures ReplaceAll(s, pat, rep) == Join(SplitOn(s, pat), rep)
    decreases |s|
  {
    if |s| < |pat| {
    } else if s[..|pat|] == pat {
      ReplaceAllIsJoinOfSplit(s[|pat|..], pat, rep);
      var p := SplitOn(s[|pat|..], pat);
      assert ([""] + p)[1..] == p;
    } else {
      ReplaceAllIsJoinOfSplit(s[1..], pat, rep);
      JoinConsHead(s[0], SplitOn(s[1..], pat), rep);
    }
  }

  /** Replacing a pattern by itself changes nothing. */
  lemma {:induction false} ReplaceAllSelf(s: string, pat: string)
    requires |pat| > 0
    ensures ReplaceAll(s, pat, pat) == s
    decreases |s|
  {
    if |s| < |pat| {
    } else if s[..|pat|] == pat {
      ReplaceAllSelf(s[|pat|..], pat);
      assert s == s[..|pat|] + s[|pat|..];
    } else {
      ReplaceAllSelf(s[1..], pat);
      assert s == [s[0]] + s[1..];
    }
  }

  /** Joining the pieces of a split with the separator gives back the input. */
  lemma {:induction false} SplitJoinRoundTrip(s: string, sep: string)
    requires |sep| > 0
    ensures Join(SplitOn(s, sep), sep) == s
  {
    ReplaceAllIsJoinOfSplit(s, sep, sep);
    ReplaceAllSelf(s, sep);
  }

  /** The full description of replace-all: the input is its pattern-free
      pieces joined by the pattern, and the output is the same pieces joined
      by the replacement. So every occurrence is replaced and all other text
      is kept. */
  lemma ReplaceAllPieces(s: string, pat: string, rep: string)
    requires |pat| > 0
    ensures var pieces := SplitOn(s, pat);
      && s == Join(pieces, pat)
      && (forall i :: 0 <= i < |pieces| ==> !Contains(pieces[i], pat))
      && ReplaceAll(s, pat, rep) == Join(pieces, rep)
  {
    SplitJoinRoundTrip(s, pat);
    SplitPiecesAreFree(s, pat);
    ReplaceAllIsJoinOfSplit(s, pat, rep);
  }

  /** A piece without the pattern has none of its single characters. */
  lemma FreeOfChar(s: string, c: char)
    requires !Contains(s, [c])
    ensures c !in s
  {
    forall i | 0 <= i < |s| ensures s[i] != c {
      assert !MatchAt(s, [c], i);
      assert s[i..i + 1] == [s[i]];
    }
  }

  lemma MatchAtShift(c: char, t: string, pat: string, i: nat)
    ensures MatchAt(t, pat, i) ==> MatchAt([c] + t, pat, i + 1)
  {
    if i + |pat| <= |t| {
      assert ([c] + t)[i + 1..i + 1 + |pat|] == t[i..i + |pat|];
    }
  }

  lemma {:induction false} SplitPiecesAreFree(s: string, sep: string)
    requires |sep| > 0
    ensures forall k :: 0 <= k < |SplitOn(s, sep)| ==> !Contains(SplitOn(s, sep)[k], sep)
    decreases |s|
  {
    var parts := SplitOn(s, sep);
    if |s| < |sep| {
      forall i: nat | MatchAt(s, sep, i) ensures false { }
    } else if s[..|sep|] == sep {
      SplitPiecesAreFree(s[|sep|..], sep);
      var p := SplitOn(s[|sep|..], sep);
      assert parts == [""] + p;
      forall k | 0 <= k < |parts| ensures !Contains(parts[k], sep) {
        if k == 0 {
          forall i: nat | MatchAt("", sep, i) ensures false { }
        } else {
          assert parts[k] == p[k - 1];
        }
      }
    } else {
      SplitPiecesAreFree(s[1..], sep);
      var rest := SplitOn(s[1..], sep);
      var head := [s[0]] + rest[0];
      assert parts == [head] + rest[1..];
      assert head <= s by {
        assert rest[0] <= s[1..];
        assert s == [s[0]] + s[1..];
      }
      forall i: nat | 0 < i <= |head| ensures !MatchAt(head, sep, i) {
        if i + |sep| <= |head| {
          assert head[i..i + |sep|] == rest[0][i - 1..i - 1 + |sep|];
          assert !MatchAt(rest[0], sep, i - 1);
        }
      }
      forall k | 0 <= k < |parts| ensures !Contains(parts[k], sep) {
        if k > 0 {
          assert parts[k] == rest[k];
        }
      }
    }
  }

  /** Text without an occurrence of the pattern is left as it is. */
  lemma {:induction false} ReplaceAllAbsent(s: string, pat: string, rep: string)
    requires |pat| > 0 && !Contains(s, pat)
    ensures ReplaceAll(s, pat, rep) == s
    decreases |s|
  {
    if |s| >= |pat| {
      assert !MatchAt(s, pat, 0);
      assert s == [s[0]] + s[1..];
      forall i: nat | i <= |s[1..]| ensures !MatchAt(s[1..], pat, i) {
        MatchAtShift(s[0], s[1..], pat, i);
      }
      ReplaceAllAbsent(s[1..], pat, rep);
    }
  }

  /** A prefix that does not contain the pattern's first character is copied
      through unchanged, since no occurrence can start inside it. */
  lemma {:induction false} ReplaceAllSkipPrefix(a: string, t: string, pat: string, rep: string)
    requires |pat| > 0 && pat[0] !in a
    ensures ReplaceAll(a + t, pat, rep) == a + ReplaceAll(t, pat, rep)
    decreases |a|
  {
    if |a| > 0 {
      var s := a + t;
      assert s[0] == a[0];
      assert s[1..] == a[1..] + t;
      ReplaceAllSkipPrefix(a[1..], t, pat, rep);
      if |s| >= |pat| {
        assert s[..|pat|][0] != pat[0];
      }
      assert a == [a[0]] + a[1..];
    } else {
      assert a + t == t;
    }
  }

  /** One occurrence at the front is replaced and the scan resumes after it. */
  lemma ReplaceAllFront(pat: string, t: string, rep: string)
    requires |pat| > 0
    ensures ReplaceAll(pat + t, pat, rep) == rep + ReplaceAll(t, pat, rep)
  {
    assert (pat + t)[..|pat|] == pat;
    assert (pat + t)[|pat|..] == t;
  }

  /** Text without the pattern's first character is left as it is. */
  lemma ReplaceAllNoFirstChar(s: string, pat: string, rep: string)
    requires |pat| > 0 && pat[0] !in s
    ensures ReplaceAll(s, pat, rep) == s
  {
    forall i: nat | i < |s| ensures !MatchAt(s, pat, i) {
      assert s[i] != pat[0];
    }
    ReplaceAllAbsent(s, pat, rep);
  }

  /** A same-length replacement preserves the length. */
  lemma {:induction false} ReplaceAllSameLength(s: string, pat: string, rep: string)
    requires |pat| == |rep| > 0
    ensures |ReplaceAll(s, pat, rep)| == |s|
    decreases |s|
  {
    if |s| < |pat| {
    } else if s[..|pat|] == pat {
      ReplaceAllSameLength(s[|pat|..], pat, rep);
    } else {
      ReplaceAllSameLength(s[1..], pat, rep);
    }
  }

  /** Replacing a one-character pattern by text without that character
      leaves no occurrence of it. */
  lemma {:induction false} ReplaceAllRemovesChar(s: string, c: char, rep: string)
    requires c !in rep
    ensures c !in ReplaceAll(s, [c], rep)
    decreases |s|
  {
    if |s| >= 1 {
      if s[..1] == [c] {
        ReplaceAllRemovesChar(s[1..], c, rep);
      } else {
        assert s[0] != c by { assert s[..1] == [s[0]]; }
        ReplaceAllRemovesChar(s[1..], c, rep);
      }
    }
  }

  /** Splitting on a one-character separator peels off the text before its
      first occurrence. */
  lemma {:induction false} SplitCharFirst(a: string, c: char, b: string)
    requires c !in a
    ensures SplitOn(a + [c] + b, [c]) == [a] + SplitOn(b, [c])
    decreases |a|
  {
    var s := a + [c] + b;
    if |a| == 0 {
      assert s[..1] == [c];
      assert s[1..] == b;
    } else {
      assert s[..1] == [a[0]];
      assert s[1..] == a[1..] + [c] + b;
      SplitCharFirst(a[1..], c, b);
      assert a == [a[0]] + a[1..];
    }
  }

  /** Joining one more piece appends the separator and the piece. */
  lemma {:induction false} JoinSnoc(parts: seq<string>, x: string, sep: string)
    requires |parts| >= 1
    ensures Join(parts + [x], sep) == Join(parts, sep) + sep + x
    decreases |parts|
  {
    if |parts| == 1 {
      assert (parts + [x])[1..] == [x];
    } else {
      assert (parts + [x])[1..] == parts[1..] + [x];
      JoinSnoc(parts[1..], x, sep);
    }
  }

  /** One occurrence of `pat` between text without its first character,
      followed by such text and then text free of `pat`, is the only one
      replaced. */
  lemma ReplaceAllSplice(a: string, pat: string, c: string, rest: string, rep: string)
    requires |pat| > 0 && pat[0] !in a && pat[0] !in c
    requires !Contains(rest, pat)
    ensures ReplaceAll(a + pat + c + rest, pat, rep) == a + rep + c + rest
  {
    var tail := c + rest;
    assert a + pat + c + rest == a + (pat + tail);
    assert ReplaceAll(a + (pat + tail), pat, rep) == a + ReplaceAll(pat + tail, pat, rep) by {
      ReplaceAllSkipPrefix(a, pat + tail, pat, rep);
    }
    assert ReplaceAll(pat + tail, pat, rep) == rep + ReplaceAll(tail, pat, rep) by {
      ReplaceAllFront(pat, tail, rep);
    }
    assert ReplaceAll(tail, pat, rep) == tail by {
      ReplaceAllSkipPrefix(c, rest, pat, rep);
      ReplaceAllAbsent(rest, pat, rep);
    }
  }

  // ---------------------------------------------------------------------
  // Lemmas about ReplaceEach
  // ---------------------------------------------------------------------

  /** Folding over two lists of pairs is folding over the first, then the second. */
  lemma {:induction false} ReplaceEachAppend(s: string, a: seq<(string, string)>, b: seq<(string, string)>)
    ensures ReplaceEach(s, a + b) == ReplaceEach(ReplaceEach(s, a), b)
    decreases |a|
  {
    if |a| > 0 {
      assert (a + b)[0] == a[0];
      assert (a + b)[1..] == a[1..] + b;
      ReplaceEachAppend(ReplaceAll(s, a[0].0, a[0].1), a[1..], b);
    } else {
      assert a + b == b;
    }
  }

  lemma ReplaceEachSingle(s: string, pat: string, rep: string)
    ensures ReplaceEach(s, [(pat, rep)]) == ReplaceAll(s, pat, rep)
  {
    assert [(pat, rep)][1..] == [];
  }

  /** When none of the patterns occurs, the text is left as it is. */
  lemma {:induction false} ReplaceEachAbsent(s: string, pairs: seq<(string, string)>)
    requires forall k :: 0 <= k < |pairs| ==> |pairs[k].0| > 0 && !Contains(s, pairs[k].0)
    ensures ReplaceEach(s, pairs) == s
    decreases |pairs|
  {
    if |pairs| > 0 {
      ReplaceAllAbsent(s, pairs[0].0, pairs[0].1);
      ReplaceEachAbsent(s, pairs[1..]);
    }
  }
}

=== FILE: wrappers.dfy ===
/** Option and Result values used for absent configuration and for the
    errors the modelled code throws. */
module Wrappers {

  datatype Option<+T> = None | Some(value: T) {

    /** The wrapped value, or `default` when there is none (the `??` operator). */
    function GetOr(default: T): (r: T) {
      match this
      case Some(v) => v
      case None => default
    }
  }

  datatype Result<+R, +E> = Success(value: R) | Failure(error: E)
}
